=== FILE: README.md ===
# Substack Balancer — a Dafny model of its extraction, packaging and URL-input rules

Substack Balancer takes the URL of a Substack post, fetches the page through a
CORS proxy, extracts the article text, and asks a language model for a critical
review with web sources. This project models the decision logic of that path as
pure Dafny functions and proves properties about them. The logic lives in three
places:

- **Extraction** (`fetchSubstackContent`). Modules `WebUrl`, `Dom`, `Text` and `Extractor`.
  - The URL is cleaned to origin and path.
  - The content node is the first of `.body.markup`, `.available-content`,
    `.post-content`, `article`, `main` that matches; `document.body` is the fallback.
  - Noise elements (scripts, navigation, subscribe widgets …) are removed below that node.
  - The text is collapsed to single spaces and trimmed.
  - Text shorter than 100 characters is rejected, and longer text is cut to 30000 characters.
  - Every failure becomes one generic message.
- **Response packaging** (`analyzeSubstackPost`). Modules `Types` and `Analysis`.
  - The review text falls back to "No analysis could be generated."
  - Grounding chunks that have a web entry become `Source`s; a missing title becomes "External Source".
  - Sources are de-duplicated by URI. The first occurrence wins, and order is kept.
  - Extraction failures propagate with their own message. A failed model call gets
    "Failed to analyze the post with AI. Please try again later."
- **URL input** (`InputSection`). Module `InputSection`.
  - The stored state gets an `https://` prefix unless the value starts with `http`.
  - Clearing the box clears the state.
  - The box shows the state without `http://`/`https://`.
  - Pasting trims the clipboard text first.
  - The submit handler passes the trimmed state. The button is disabled while the
    state is blank or an analysis runs.
  - The text box is a required field and the submit button is the form's default
    button, so the browser submits the form, by the button or by Enter, only while
    the box shows something and the button is enabled.

The network and the browser are function parameters:
- the proxy request is `fetch: string -> Option<ProxyReply>`;
- `DOMParser` with `querySelector` is `parse: string -> Document`, where a document
  lists the node each selector resolves to;
- the model call is `generate: string -> Option<GenerateResponse>`.

`None` stands for a thrown exception.

`fetchSubstackContent` rejects text shorter than 100 characters after
normalisation and cuts longer text to 30000 characters. It reports every failure
by throwing one fixed message; here that is `Failure(ExtractFailedMessage)`.

## Model

| member | source | states |
|---|---|---|
| WebUrl.Parse | services/geminiService.ts:10 | Every URL the constructor accepts has a lower-case valid scheme, a non-empty host, and query and fragment split at the first `?` and `#`. |
| WebUrl.ParseKeepsInput | services/geminiService.ts:10 | The parsed scheme is the input's scheme lower-cased, and the parsed URL written out with the scheme as typed is the input itself. |
| WebUrl.ParseHref | services/geminiService.ts:10 | Parsing the serialisation of any well-formed URL gives back that URL. |
| WebUrl.Origin | services/geminiService.ts:11 | The origin is "null" exactly for schemes without a tuple origin; otherwise it starts with the scheme and `://`, holds no user information (`@`) and is lower case. |
| WebUrl.Pathname | services/geminiService.ts:11 | The path name is the path, except that an empty path of a special scheme becomes "/"; it is empty only for an empty path of a non-special scheme. |
| WebUrl.CleanUrl | services/geminiService.ts:11 | The cleaned URL starts with the origin, and for a parsed URL contains neither `?` nor `#`. |
| WebUrl.CleanedIsClean | services/geminiService.ts:11 | For an http(s)-like URL, the cleaned string is exactly the serialisation of the URL made of the scheme, the lower-cased host and port, and the path name, with no query or fragment; that URL is well formed and cleans to the same string. |
| WebUrl.BareSchemeRejected | services/geminiService.ts:10 | A scheme followed by `://` and nothing else names no host, so the constructor rejects it. |
| WebUrl.CleanOf | services/geminiService.ts:10-11 | The cleaned URL exists exactly when the URL parses, and it has no query and no fragment. |
| WebUrl.QueryAndFragmentIgnored | services/geminiService.ts:10-11 | Two URLs that differ only in query and fragment clean to the same string. |
| WebUrl.CleanUrlIdempotent | services/geminiService.ts:10-11 | For an http(s)-like URL, the cleaned URL parses and cleans to itself. |
| Dom.TextContent | services/geminiService.ts:44 | The text of a node is the data of its text nodes, concatenated in the order a depth-first walk with a stack of pending nodes meets them. |
| Dom.TextOfAllAppend | services/geminiService.ts:44 | The text of a run of sibling nodes is the text of its first part followed by that of the rest, so text follows document order. |
| Dom.RemoveNoise | services/geminiService.ts:40-42 | After removal, no script, style, svg, button, nav, footer or iframe element and no `.subscribe-widget` or `.share-dialog` element remains below the content node; the node itself is kept. |
| Dom.RemoveNoiseKeepsText | services/geminiService.ts:40-44 | After removal, the node's text is exactly the text of all text nodes that have no noise element above them, in document order. |
| Dom.RemoveNoiseIdempotent | services/geminiService.ts:41-42 | Removing noise a second time changes nothing. |
| Extractor.FirstPresent | services/geminiService.ts:27-33 | An `a \|\| b \|\| …` chain yields the first present candidate, and the fallback only when all are absent. |
| Extractor.Candidates | services/geminiService.ts:28-32 | The five selectors are tried in the order `.body.markup`, `.available-content`, `.post-content`, `article`, `main`. |
| Extractor.ContentNode | services/geminiService.ts:27-33 | The content node is absent only when no selector matches and there is no body; otherwise it is the body or the node some selector resolves to. |
| Extractor.ContentNodePriority | services/geminiService.ts:27-33 | A selector's node is chosen if it matches and no earlier selector does. |
| Extractor.ContentNodeFallsBackToBody | services/geminiService.ts:27-33 | When no selector matches, `document.body` is used. |
| Text.Trim | services/geminiService.ts:45 | `trim()` leaves no whitespace at either end, returns a contiguous piece of its input with the same non-whitespace characters, and keeps already-trimmed text unchanged. |
| Text.Collapse | services/geminiService.ts:45 | `replace(/\s+/g, ' ')` leaves only single plain spaces, keeps every non-whitespace character in order, and empties only the empty string. A leading or trailing whitespace run becomes one space, and a visible first or last character is kept. |
| Text.CollapseKeepsWords | services/geminiService.ts:45 | Collapsing whitespace keeps the words (maximal non-whitespace runs): no two words are glued and none is split. |
| Text.TrimKeepsWords | services/geminiService.ts:45 | Trimming keeps the words. |
| Text.SpacedIsJoinedWords | services/geminiService.ts:45 | Single-spaced text without whitespace at its ends is its words joined by single spaces. |
| Text.CollapseFixpoint | services/geminiService.ts:45 | Collapsing text that is already single-spaced changes nothing. |
| Extractor.CleanText | services/geminiService.ts:45 | Normalised text has no whitespace at the ends, no two adjacent whitespace characters, the same non-whitespace content and the same words, and is exactly the text's words joined by single spaces. |
| Extractor.CleanTextIdempotent | services/geminiService.ts:45 | Normalising twice is the same as normalising once. |
| Extractor.Truncate | services/geminiService.ts:52 | `slice(0, n)` is the prefix of length min(len, n). |
| Extractor.Gate | services/geminiService.ts:44-52 | The length gate fails exactly when the normalised text is under 100 characters. Otherwise the result is a prefix of that text of 100 to 30000 characters, and is the whole text when it fits. |
| Extractor.ExtractFrom | services/geminiService.ts:13-52 | A successful extraction has 100 to 30000 characters, and the invalid-URL failure happens exactly when the URL did not parse. |
| Extractor.FetchContent | services/geminiService.ts:54-57 | Every failure is reported with the one generic message, and success means 100 to 30000 characters. |
| Extractor.EarlyFailuresReported | services/geminiService.ts:10-38 | A rejected URL, a proxy call that throws, a reply without contents or with empty contents, and a page without a content node each end in the generic failure message. |
| Extractor.ExtractionDependsOnCleanUrl | services/geminiService.ts:10-15 | Two URLs with the same cleaned form give the same extraction outcome. |
| Extractor.ExtractionIgnoresQueryAndFragment | services/geminiService.ts:9-15 | Tracking parameters and fragments do not change what is extracted. |
| Extractor.ExtractionFromContentNode | services/geminiService.ts:44-52 | Once a content node is found, extraction succeeds exactly when its cleaned text has at least 100 characters, and then yields that text cut to 30000. |
| Analysis.Markdown | services/geminiService.ts:94 | The review text is never empty. It is the model's text when that is non-empty, otherwise "No analysis could be generated.". |
| Analysis.SourceOf | services/geminiService.ts:104-107 | A source keeps the chunk's URI and has a non-empty title: the chunk's own title when it is present and non-empty, and exactly "External Source" when it is missing or empty. |
| Analysis.GroundingChunks | services/geminiService.ts:100 | The chunks are those of the first candidate's grounding metadata when every link of that chain is present, and empty otherwise. |
| Analysis.Sources | services/geminiService.ts:102-109 | Only chunks with a web entry yield sources, every such chunk yields one, and no more sources than chunks come out. |
| Analysis.SourcesAppend | services/geminiService.ts:102-109 | Mapping respects concatenation, so sources follow chunk order. |
| Analysis.FindIndex | services/geminiService.ts:113 | `findIndex` returns -1 or a position holding the URI. |
| Analysis.FindIndexIsFirst | services/geminiService.ts:113 | `findIndex` returns -1 exactly when the URI is absent, and otherwise the first position holding it. |
| Analysis.KeepFirstFrom | services/geminiService.ts:112-114 | The filter never yields more entries than it examines. |
| Analysis.KeptAreFirst | services/geminiService.ts:112-114 | Every entry the filter keeps is the first occurrence of its URI. |
| Analysis.UniqueByUri | services/geminiService.ts:112-114 | After de-duplication: URIs are pairwise distinct; the set of URIs is unchanged; each kept entry is the first occurrence of its URI; entries keep the input's relative order. |
| Analysis.UniqueByUriIdempotent | services/geminiService.ts:112-114 | De-duplicating twice is the same as once. |
| Analysis.UniqueByUriExample | services/geminiService.ts:111-114 | `[A/u1, B/u2, C/u1]` becomes `[A/u1, B/u2]`. |
| Analysis.Package | services/geminiService.ts:94-119 | The returned `ReviewResponse` holds the review text and the de-duplicated sources of the grounding chunks: a non-empty text and titled sources with distinct URIs, covering exactly the URIs of the web chunks. |
| Analysis.NoMetadataNoSources | services/geminiService.ts:100 | Without candidates or grounding metadata the source list is empty. |
| Analysis.AnalyzePost | services/geminiService.ts:60-124 | A failure carries either the extraction message or the model message. The extraction message appears exactly when extraction failed. After a successful extraction, a failed model call gives the model message and an answer gives its packaged response. A success has a non-empty text and distinct source URIs. |
| Analysis.ModelNotConsultedAfterExtractionFailure | services/geminiService.ts:60-62 | When extraction fails, the outcome is the same whatever the model would answer. |
| InputSection.WithProtocol | components/InputSection.tsx:25 | The result starts with `http`, and it equals the input exactly when the input already starts with `http`. |
| InputSection.OnChange | components/InputSection.tsx:58-67 | The state is empty exactly when the box is cleared, and otherwise starts with `http`. |
| InputSection.OnChangeIdempotent | components/InputSection.tsx:66 | Normalising an already normalised state leaves it unchanged. |
| InputSection.Paste | components/InputSection.tsx:22-26 | The pasted state starts with `http`, has no whitespace at its ends, and holds the clipboard's non-whitespace content. It is the trimmed text exactly when that starts with `http`, and otherwise `https://` followed by the trimmed text. |
| InputSection.PasteIsChangeOfTrimmed | components/InputSection.tsx:22-26 | Pasting non-blank text stores what typing its trimmed form would store. |
| InputSection.ProtocolKeepsEdges | components/InputSection.tsx:23-25 | Prefixing the scheme keeps trimmed text trimmed and adds only the scheme's characters. |
| InputSection.PasteIdempotent | components/InputSection.tsx:22-25 | Pasting the stored state again leaves it unchanged. |
| InputSection.DisplayValue | components/InputSection.tsx:57 | The shown value is the state with one leading `https://` or `http://` removed, or the state itself. |
| InputSection.DisplayRoundTrip | components/InputSection.tsx:57-66 | A non-empty typed value without `http://`/`https://` is shown back exactly as typed. |
| InputSection.EditingHttpAddressSwitchesToHttps | components/InputSection.tsx:57-66 | Editing the box of an `http://` address re-stores it as `https://`. |
| InputSection.Submit | components/InputSection.tsx:15-17 | Once `handleSubmit` runs, it calls `onAnalyze` exactly when the state has non-whitespace content, and it receives a contiguous piece of the state with no whitespace at its ends and the same non-whitespace content. |
| InputSection.SubmitDisabled | components/InputSection.tsx:87 | The button is disabled exactly when an analysis runs or the state has no non-whitespace content. |
| InputSection.SubmitEnabledIffSubmits | components/InputSection.tsx:87 | The button is enabled exactly when no analysis is running and `handleSubmit`, once it runs, would call `onAnalyze`. |
| InputSection.FormSubmit | components/InputSection.tsx:44-87 | Submitting the form, by the button or by Enter, reaches `onAnalyze` exactly when no analysis runs (the disabled submit button), the box shows something (the required field) and the state has non-whitespace content; then it passes what `handleSubmit` passes. |
| InputSection.EnabledButBlockedIffBareScheme | components/InputSection.tsx:57-87 | The button is enabled while the form refuses to submit exactly when no analysis runs and the state is a bare `http://` or `https://`. |
| InputSection.HttpPrefixedHostKeepsNoScheme | components/InputSection.tsx:24-25 | A host name starting with `http` is stored without any scheme, and the extractor's URL parse then rejects it. |
| InputSection.WithWebScheme | components/InputSection.tsx:24-25 | The intended rule: the state always carries `http://` or `https://` and displays as the value the user typed. |
| InputSection.BlankPasteStoresBareScheme | components/InputSection.tsx:23-26 | Pasting blank text stores `https://`: the box shows nothing and the button is enabled, yet the form does not submit. `handleSubmit` would pass `https://` if it ran, and the URL constructor rejects that string. |
| InputSection.PasteWithoutBlank | components/InputSection.tsx:20-30 | The intended paste: blank text leaves the state cleared, with the button disabled and the form not submitting, and other text is pasted as before. |

## Left out

- The proxy URL built with `encodeURIComponent` (services/geminiService.ts:14), `fetch` and `response.json()`: the proxy is a parameter applied to the cleaned URL.
- HTML parsing and CSS selector matching: a parsed document is given by the node each selector resolves to.
- The prompt text and the model configuration (services/geminiService.ts:65-92): the model call is a parameter that receives the extracted post.
- `console.error` logging, async sequencing, the clipboard read and React hooks: state updates are pure functions of the new input.
- `components/ReviewDisplay.tsx` and the `AnalysisStatus` enum (types.ts:9-14): they hold no logic on this path.
- Lengths are counted in Unicode code points, not in UTF-16 code units as JavaScript counts them; surrogate pairs are not modelled.
- WebUrl.Parse: only the `scheme://authority path ?query #fragment` form is accepted, and the host is not validated. It therefore differs from the WHATWG URL parser in both directions:
  - it accepts what the real constructor rejects: bad ports (`http://example.com:99999/`, `http://example.com:abc/`) and spaces or other forbidden characters in the host;
  - it rejects what the real constructor accepts: `file:///etc/x` (empty host), scheme-relative and single-slash forms;
  - it does not strip leading and trailing spaces or inner tab and newline characters, and does not remove default ports, process IDNA hosts, percent-encode, treat backslashes as slashes or resolve `.`/`..` segments.
- Analysis.Sources: a web entry is assumed to carry a `uri`; a missing `uri` (compared as `undefined` by `findIndex`) is not modelled.

## Findings

| source | as written | input that shows it | evidently intended | confidence | as-written member | corrected member |
|---|---|---|---|---|---|---|
| components/InputSection.tsx:25 | `startsWith('http')` decides whether a scheme is present (also at line 66) | typing or pasting `httpbin.org/p/post` stores `httpbin.org/p/post`, which has no scheme, so the later `new URL` rejects it | the state always holds the full URL including protocol (comment at line 24): add `https://` unless the value starts with `http://` or `https://` | not executed | InputSection.HttpPrefixedHostKeepsNoScheme | InputSection.WithWebScheme |
| components/InputSection.tsx:23-26 | a blank trimmed clipboard text still gets the `https://` prefix | pasting `" "` stores `https://`: the box shows nothing, yet the button is enabled; pressing it only brings up the browser's prompt for the empty required field (line 69), and no analysis starts | a blank paste leaves the state empty, as clearing the box does (lines 61-63), so the button is disabled while the form cannot submit | not executed | InputSection.BlankPasteStoresBareScheme | InputSection.PasteWithoutBlank |

=== FILE: analysis.dfy ===
/**
 * `analyzeSubstackPost` (services/geminiService.ts): extract the post, ask the
 * model for a review, and package the answer as a `ReviewResponse` whose sources
 * are the grounding chunks' web pages, one per URI, in first-citation order.
 *
 * The model call is a parameter: `generate` maps the extracted post to the
 * model's response, or to `None` when the call throws. Building the prompt around
 * the post is part of that call here.
 */
module Analysis {
  import opened Wrappers
  import opened Types
  import Extractor
  import Dom

  /** Review text used when the model returns none. */
  const NoAnalysisText: string := "No analysis could be generated."

  /** Title given to a cited page whose title is missing or empty. */
  const DefaultSourceTitle: string := "External Source"

  /** The message every failed model call is reported with. */
  const AnalysisFailedMessage: string := "Failed to analyze the post with AI. Please try again later."

  /** The parts of a `generateContent` response that are read. */
  datatype Web = Web(title: Option<string>, uri: string)
  datatype GroundingChunk = GroundingChunk(web: Option<Web>)
  datatype GroundingMetadata = GroundingMetadata(groundingChunks: Option<seq<GroundingChunk>>)
  datatype Candidate = Candidate(groundingMetadata: Option<GroundingMetadata>)
  datatype GenerateResponse = GenerateResponse(text: Option<string>, candidates: Option<seq<Candidate>>)

  /** The review text: the model's text when it has any, the placeholder
      otherwise; never empty. */
  function Markdown(text: Option<string>): (m: string)
    ensures m != ""
    ensures text.Some? && text.value != "" ==> m == text.value
    ensures text.None? || text.value == "" ==> m == NoAnalysisText
  {
    if text.Some? && text.value != "" then text.value else NoAnalysisText
  }

  /** The grounding chunks of the first candidate. Any missing link on the way
      (no candidate list, an empty one, no metadata, no chunk list) gives none. */
  function GroundingChunks(response: GenerateResponse): (r: seq<GroundingChunk>)
    ensures HasChunks(response) ==> r == response.candidates.value[0].groundingMetadata.value.groundingChunks.value
    ensures !HasChunks(response) ==> r == []
  {
    match response.candidates
    case None => []
    case Some(cs) =>
      if |cs| == 0 then []
      else match cs[0].groundingMetadata
        case None => []
        case Some(meta) => if meta.groundingChunks.Some? then meta.groundingChunks.value else []
  }

  /** A cited page, its title defaulted when missing or empty. */
  function SourceOf(web: Web): (s: Source)
    ensures s.title != "" && s.uri == web.uri
    ensures web.title.Some? && web.title.value != "" ==> s.title == web.title.value
    ensures web.title.None? || web.title.value == "" ==> s.title == DefaultSourceTitle
  {
    Source(if web.title.Some? && web.title.value != "" then web.title.value else DefaultSourceTitle, web.uri)
  }

  /** One source per chunk that has a web entry, in chunk order. */
  function Sources(chunks: seq<GroundingChunk>): (r: seq<Source>)
    ensures |r| <= |chunks|
    ensures forall k :: 0 <= k < |r| ==> r[k].title != ""
    ensures forall k :: 0 <= k < |r| ==>
              exists i :: 0 <= i < |chunks| && chunks[i].web.Some? && r[k] == SourceOf(chunks[i].web.value)
    ensures forall i :: 0 <= i < |chunks| && chunks[i].web.Some? ==> SourceOf(chunks[i].web.value) in r
  {
    if |chunks| == 0 then []
    else
      var rest := Sources(chunks[1..]);
      assert forall i :: 1 <= i < |chunks| ==> chunks[i] == chunks[1..][i - 1];
      if chunks[0].web.Some? then [SourceOf(chunks[0].web.value)] + rest else rest
  }

  /** Mapping chunks to sources respects concatenation, so the sources keep the chunks' order. */
  lemma {:induction false} SourcesAppend(a: seq<GroundingChunk>, b: seq<GroundingChunk>)
    ensures Sources(a + b) == Sources(a) + Sources(b)
  {
    if |a| == 0 {
      assert a + b == b;
    } else {
      assert (a + b)[1..] == a[1..] + b;
      SourcesAppend(a[1..], b);
    }
  }

  /** No two sources share a URI. */
  predicate DistinctUris(s: seq<Source>) {
    forall p, q :: 0 <= p < q < |s| ==> s[p].uri != s[q].uri
  }

  /** The URIs cited in `s`. */
  function Uris(s: seq<Source>): set<string> {
    set k | 0 <= k < |s| :: s[k].uri
  }

  /** The array search of the de-duplication: the position of the first entry
      whose URI is `uri`, or -1 (the first-position part is `FindIndexIsFirst`). */
  function FindIndex(self: seq<Source>, uri: string): (r: int)
    ensures -1 <= r < |self|
    ensures r >= 0 ==> self[r].uri == uri
  {
    if |self| == 0 then -1
    else if self[0].uri == uri then 0
    else
      var r := FindIndex(self[1..], uri);
      if r == -1 then -1 else r + 1
  }

  /** `findIndex` answers -1 exactly when no entry holds `uri`, and otherwise the
      first position that does. */
  lemma {:induction false} FindIndexIsFirst(self: seq<Source>, uri: string)
    ensures FindIndex(self, uri) == -1 <==> forall j :: 0 <= j < |self| ==> self[j].uri != uri
    ensures FindIndex(self, uri) >= 0 ==> forall j :: 0 <= j < FindIndex(self, uri) ==> self[j].uri != uri
  {
    if |self| > 0 && self[0].uri != uri {
      FindIndexIsFirst(self[1..], uri);
      assert forall j :: 1 <= j < |self| ==> self[j] == self[1..][j - 1];
    }
  }

  /** The de-duplicating filter from position `i` of `self` on: an entry is kept
      when `findIndex` of its URI is its own position. */
  function KeepFirstFrom(self: seq<Source>, i: nat): (r: seq<Source>)
    requires i <= |self|
    ensures |r| <= |self| - i
    decreases |self| - i
  {
    if i == |self| then []
    else (if FindIndex(self, self[i].uri) == i then [self[i]] else []) + KeepFirstFrom(self, i + 1)
  }

  /** Every kept entry is the first occurrence of its URI, at or after `i`. */
  lemma {:induction false} KeptAreFirst(self: seq<Source>, i: nat)
    requires i <= |self|
    ensures forall x :: x in KeepFirstFrom(self, i) ==>
              i <= FindIndex(self, x.uri) && self[FindIndex(self, x.uri)] == x
    decreases |self| - i
  {
    if i < |self| {
      KeptAreFirst(self, i + 1);
      var head := if FindIndex(self, self[i].uri) == i then [self[i]] else [];
      assert KeepFirstFrom(self, i) == head + KeepFirstFrom(self, i + 1);
    }
  }

  /** The entries of `r` are listed in increasing order of where their URIs first occur in `self`. */
  predicate InFirstOccurrenceOrder(self: seq<Source>, r: seq<Source>) {
    forall p, q :: 0 <= p < q < |r| ==> FindIndex(self, r[p].uri) < FindIndex(self, r[q].uri)
  }

  /** Putting an entry that occurs first before all of `rest` in front keeps the order. */
  lemma ConsInFirstOccurrenceOrder(self: seq<Source>, x: Source, rest: seq<Source>)
    requires InFirstOccurrenceOrder(self, rest)
    requires forall y :: y in rest ==> FindIndex(self, x.uri) < FindIndex(self, y.uri)
    ensures InFirstOccurrenceOrder(self, [x] + rest)
  {
    var r := [x] + rest;
    forall p, q | 0 <= p < q < |r|
      ensures FindIndex(self, r[p].uri) < FindIndex(self, r[q].uri)
    {
      assert r[q] == rest[q - 1] && rest[q - 1] in rest;
      if p == 0 {
        assert r[p] == x;
      } else {
        assert r[p] == rest[p - 1];
      }
    }
  }

  /** Kept entries appear in the order of their first occurrence. */
  lemma {:induction false} KeptInOrder(self: seq<Source>, i: nat)
    requires i <= |self|
    ensures InFirstOccurrenceOrder(self, KeepFirstFrom(self, i))
    decreases |self| - i
  {
    if i < |self| {
      KeptInOrder(self, i + 1);
      KeptAreFirst(self, i + 1);
      var rest := KeepFirstFrom(self, i + 1);
      if FindIndex(self, self[i].uri) == i {
        assert KeepFirstFrom(self, i) == [self[i]] + rest;
        assert forall y :: y in rest ==> i < FindIndex(self, y.uri);
        ConsInFirstOccurrenceOrder(self, self[i], rest);
      } else {
        assert KeepFirstFrom(self, i) == rest;
      }
    }
  }

  /** Entries listed in strictly increasing first-occurrence order have distinct URIs. */
  lemma OrderedAreDistinct(self: seq<Source>, r: seq<Source>)
    requires InFirstOccurrenceOrder(self, r)
    ensures DistinctUris(r)
  {
  }

  /** Every first occurrence at or after `i` is kept. */
  lemma {:induction false} FirstOccurrencesKept(self: seq<Source>, i: nat)
    requires i <= |self|
    ensures forall j :: i <= j < |self| && FindIndex(self, self[j].uri) == j ==> self[j] in KeepFirstFrom(self, i)
    decreases |self| - i
  {
    if i < |self| {
      FirstOccurrencesKept(self, i + 1);
      var rest := KeepFirstFrom(self, i + 1);
      if FindIndex(self, self[i].uri) == i {
        assert KeepFirstFrom(self, i) == [self[i]] + rest;
      } else {
        assert KeepFirstFrom(self, i) == rest;
      }
    }
  }

  /** De-duplication by URI: an entry survives when no earlier entry has its URI.
      The result has pairwise distinct URIs, loses none of the input's URIs, holds for
      each URI the entry where it first occurs, and keeps the input's relative order. */
  function UniqueByUri(sources: seq<Source>): (r: seq<Source>)
    ensures DistinctUris(r)
    ensures Uris(r) == Uris(sources)
    ensures forall k :: 0 <= k < |r| ==>
              0 <= FindIndex(sources, r[k].uri) && sources[FindIndex(sources, r[k].uri)] == r[k]
    ensures InFirstOccurrenceOrder(sources, r)
  {
    var r := KeepFirstFrom(sources, 0);
    KeptAreFirst(sources, 0);
    KeptInOrder(sources, 0);
    OrderedAreDistinct(sources, r);
    FirstOccurrencesKept(sources, 0);
    assert Uris(r) == Uris(sources) by {
      forall u | u in Uris(sources) ensures u in Uris(r) {
        FindIndexIsFirst(sources, u);
        var j := FindIndex(sources, u);
        assert sources[j].uri == u;
        assert FindIndex(sources, sources[j].uri) == j;
        assert sources[j] in r;
        var k :| 0 <= k < |r| && r[k] == sources[j];
        assert r[k].uri == u;
      }
      forall u | u in Uris(r) ensures u in Uris(sources) {
        var k :| 0 <= k < |r| && r[k].uri == u;
        assert sources[FindIndex(sources, u)].uri == u;
      }
    }
    r
  }

  /** A list whose URIs are already distinct is left as it is. */
  lemma {:induction false} KeepFirstOfDistinct(self: seq<Source>, i: nat)
    requires DistinctUris(self) && i <= |self|
    ensures KeepFirstFrom(self, i) == self[i..]
    decreases |self| - i
  {
    if i < |self| {
      KeepFirstOfDistinct(self, i + 1);
      FindIndexIsFirst(self, self[i].uri);
      assert FindIndex(self, self[i].uri) == i;
      assert self[i..] == [self[i]] + self[i + 1..];
    }
  }

  /** De-duplicating twice is the same as de-duplicating once. */
  lemma UniqueByUriIdempotent(sources: seq<Source>)
    ensures UniqueByUri(UniqueByUri(sources)) == UniqueByUri(sources)
  {
    KeepFirstOfDistinct(UniqueByUri(sources), 0);
  }

  /** `[A/u1, B/u2, C/u1]` becomes `[A/u1, B/u2]`. */
  lemma UniqueByUriExample()
    ensures UniqueByUri([Source("A", "u1"), Source("B", "u2"), Source("C", "u1")])
         == [Source("A", "u1"), Source("B", "u2")]
  {
    var s := [Source("A", "u1"), Source("B", "u2"), Source("C", "u1")];
    assert FindIndex(s, "u1") == 0;
    assert FindIndex(s, "u2") == 1;
    assert KeepFirstFrom(s, 3) == [];
    assert KeepFirstFrom(s, 2) == [];
    assert KeepFirstFrom(s, 1) == [Source("B", "u2")];
  }

  /** The response handed to the display: the review text, and the de-duplicated
      sources of the grounding chunks. */
  function Package(response: GenerateResponse): (r: ReviewResponse)
    ensures r.markdown == Markdown(response.text)
    ensures r.sources == UniqueByUri(Sources(GroundingChunks(response)))
    ensures r.markdown != ""
    ensures DistinctUris(r.sources)
    ensures forall k :: 0 <= k < |r.sources| ==> r.sources[k].title != ""
    ensures Uris(r.sources) == Uris(Sources(GroundingChunks(response)))
  {
    var sources := Sources(GroundingChunks(response));
    var unique := UniqueByUri(sources);
    assert forall k :: 0 <= k < |unique| ==> unique[k].title != "" by {
      forall k | 0 <= k < |unique| ensures unique[k].title != "" {
        assert unique[k] == sources[FindIndex(sources, unique[k].uri)];
      }
    }
    ReviewResponse(Markdown(response.text), unique)
  }

  /** Whether the first candidate carries a list of grounding chunks. */
  predicate HasChunks(response: GenerateResponse) {
    && response.candidates.Some?
    && |response.candidates.value| > 0
    && response.candidates.value[0].groundingMetadata.Some?
    && response.candidates.value[0].groundingMetadata.value.groundingChunks.Some?
  }

  /** Without grounding metadata the review cites nothing. */
  lemma NoMetadataNoSources(response: GenerateResponse)
    requires response.candidates.None? || |response.candidates.value| == 0
          || response.candidates.value[0].groundingMetadata.None?
    ensures Package(response).sources == []
  {
  }

  /** `analyzeSubstackPost`: extraction failures surface with their own message
      (the extraction is outside the `try`), and a failed model call with the generic one. */
  function AnalyzePost(
    url: string,
    fetch: string -> Option<Extractor.ProxyReply>,
    parse: string -> Dom.Document,
    generate: string -> Option<GenerateResponse>)
    : (r: Result<ReviewResponse, string>)
    ensures r.Failure? ==> r.error == Extractor.ExtractFailedMessage || r.error == AnalysisFailedMessage
    ensures (r.Failure? && r.error == Extractor.ExtractFailedMessage) <==> Extractor.FetchContent(url, fetch, parse).Failure?
    ensures r.Success? ==> r.value.markdown != "" && DistinctUris(r.value.sources)
    ensures Extractor.FetchContent(url, fetch, parse).Success? ==>
              var content := Extractor.FetchContent(url, fetch, parse).value;
              && (generate(content).None? ==> r == Failure(AnalysisFailedMessage))
              && (generate(content).Some? ==> r == Success(Package(generate(content).value)))
  {
    match Extractor.FetchContent(url, fetch, parse)
    case Failure(message) => Failure(message)
    case Success(content) =>
      match generate(content)
      case None => Failure(AnalysisFailedMessage)
      case Some(response) => Success(Package(response))
  }

  /** The model is consulted only after a successful extraction: when extraction
      fails, the outcome does not depend on the model at all. */
  lemma ModelNotConsultedAfterExtractionFailure(
    url: string,
    fetch: string -> Option<Extractor.ProxyReply>,
    parse: string -> Dom.Document,
    generate1: string -> Option<GenerateResponse>,
    generate2: string -> Option<GenerateResponse>)
    requires Extractor.FetchContent(url, fetch, parse).Failure?
    ensures AnalyzePost(url, fetch, parse, generate1) == AnalyzePost(url, fetch, parse, generate2)
  {
  }
}

=== FILE: dom.dfy ===
/**
 * The slice of the browser DOM the extractor touches: an element tree, the
 * `textContent` of a node, the removal of noise elements below the content node,
 * and `querySelector` answers for a parsed document.
 *
 * HTML parsing and CSS selector matching are the browser's; a parsed document is
 * given here by the node each selector resolves to.
 */
module Dom {
  import opened Wrappers

  /** A DOM node: a text node or an element with its tag name (lower case), its
      classes and its children in document order. */
  datatype Node =
    | TextNode(data: string)
    | Element(tag: string, classes: seq<string>, children: seq<Node>)

  /** Tag names of the noise removed below the content node. */
  const NoiseTags: set<string> := {"script", "style", "svg", "button", "nav", "footer", "iframe"}

  /** Class names of the noise removed below the content node. */
  const NoiseClasses: set<string> := {"subscribe-widget", "share-dialog"}

  /** Whether `n` matches the selector list
      `script, style, svg, button, nav, footer, iframe, .subscribe-widget, .share-dialog`. */
  predicate IsNoise(n: Node) {
    n.Element? && (n.tag in NoiseTags || exists k :: 0 <= k < |n.classes| && n.classes[k] in NoiseClasses)
  }

  /** No element below `n` is noise (`n` itself may be). */
  predicate NoiseFree(n: Node)
    decreases n
  {
    n.Element? ==> forall k :: 0 <= k < |n.children| ==> !IsNoise(n.children[k]) && NoiseFree(n.children[k])
  }

  /** `node.textContent`: the text of every text node below `n`, in document order,
      which is what a depth-first walk started at `n` collects. */
  function TextContent(n: Node): (r: string)
    ensures r == Concat(Walk([n]))
    decreases n, 1
  {
    match n
    case TextNode(d) =>
      assert Walk([n]) == [d] + Walk([]);
      d
    case Element(_, _, cs) =>
      assert cs + [] == cs;
      TextOfAll(cs)
  }

  /** The text of a run of siblings, in document order. */
  function TextOfAll(cs: seq<Node>): (r: string)
    ensures r == Concat(Walk(cs))
    decreases cs, 0
  {
    if |cs| == 0 then ""
    else
      var r := TextContent(cs[0]) + TextOfAll(cs[1..]);
      assert cs == [cs[0]] + cs[1..];
      WalkAppend([cs[0]], cs[1..]);
      ConcatAppend(Walk([cs[0]]), Walk(cs[1..]));
      r
  }

  /** The number of nodes in the tree rooted at `n`. */
  function Size(n: Node): nat
    decreases n, 1
  {
    match n
    case TextNode(_) => 1
    case Element(_, _, cs) => 1 + SizeAll(cs)
  }

  function SizeAll(cs: seq<Node>): nat
    decreases cs, 0
  {
    if |cs| == 0 then 0 else Size(cs[0]) + SizeAll(cs[1..])
  }

  lemma {:induction false} SizeAllAppend(a: seq<Node>, b: seq<Node>)
    ensures SizeAll(a + b) == SizeAll(a) + SizeAll(b)
    decreases |a|
  {
    if |a| > 0 {
      assert (a + b)[0] == a[0];
      assert (a + b)[1..] == a[1..] + b;
      SizeAllAppend(a[1..], b);
    } else {
      assert a + b == b;
    }
  }

  /** The data of the text nodes met by a depth-first walk that keeps the nodes
      still to visit on a stack: an element is replaced by its children, a text
      node is reported and popped. */
  function Walk(pending: seq<Node>): (r: seq<string>)
    decreases SizeAll(pending)
  {
    if |pending| == 0 then []
    else
      assert SizeAll(pending) == Size(pending[0]) + SizeAll(pending[1..]);
      match pending[0]
      case TextNode(d) => [d] + Walk(pending[1..])
      case Element(_, _, cs) =>
        assert Size(pending[0]) == 1 + SizeAll(cs);
        SizeAllAppend(cs, pending[1..]);
        Walk(cs + pending[1..])
  }

  /** The strings of `ss` one after another. */
  function Concat(ss: seq<string>): string {
    if |ss| == 0 then "" else ss[0] + Concat(ss[1..])
  }

  lemma {:induction false} ConcatAppend(a: seq<string>, b: seq<string>)
    ensures Concat(a + b) == Concat(a) + Concat(b)
    decreases |a|
  {
    if |a| > 0 {
      assert (a + b)[0] == a[0];
      assert (a + b)[1..] == a[1..] + b;
      ConcatAppend(a[1..], b);
    } else {
      assert a + b == b;
    }
  }

  /** Walking two runs of pending nodes reports the first run's texts, then the
      second's. */
  lemma {:induction false} WalkAppend(a: seq<Node>, b: seq<Node>)
    ensures Walk(a + b) == Walk(a) + Walk(b)
    decreases SizeAll(a)
  {
    if |a| == 0 {
      assert a + b == b;
    } else {
      assert (a + b)[0] == a[0];
      assert (a + b)[1..] == a[1..] + b;
      match a[0]
      case TextNode(d) =>
        assert SizeAll(a) == Size(a[0]) + SizeAll(a[1..]);
        WalkAppend(a[1..], b);
      case Element(_, _, cs) =>
        assert a == [a[0]] + a[1..];
        SizeAllAppend([a[0]], a[1..]);
        SizeAllAppend(cs, a[1..]);
        assert cs + (a[1..] + b) == (cs + a[1..]) + b;
        WalkAppend(cs + a[1..], b);
    }
  }

  /** The text of a run of siblings is the text of its first part followed by
      the text of the rest: text follows document order. */
  lemma {:induction false} TextOfAllAppend(a: seq<Node>, b: seq<Node>)
    ensures TextOfAll(a + b) == TextOfAll(a) + TextOfAll(b)
    decreases |a|
  {
    if |a| > 0 {
      assert (a + b)[0] == a[0];
      assert (a + b)[1..] == a[1..] + b;
      TextOfAllAppend(a[1..], b);
    } else {
      assert a + b == b;
    }
  }

  /** Noise removal on `n`: every noise element strictly below `n` is detached
      together with its subtree. */
  function RemoveNoise(n: Node): (r: Node)
    ensures NoiseFree(r)
    ensures r.Element? == n.Element?
    ensures r.Element? ==> r.tag == n.tag && r.classes == n.classes
    ensures n.TextNode? ==> r == n
    decreases n, 1
  {
    match n
    case TextNode(_) => n
    case Element(t, cls, cs) => Element(t, cls, RemoveNoiseAll(cs))
  }

  /** The children that remain, each cleaned in turn. */
  function RemoveNoiseAll(cs: seq<Node>): (r: seq<Node>)
    ensures forall k :: 0 <= k < |r| ==> !IsNoise(r[k]) && NoiseFree(r[k])
    ensures |r| <= |cs|
    decreases cs, 0
  {
    if |cs| == 0 then []
    else
      var rest := RemoveNoiseAll(cs[1..]);
      if IsNoise(cs[0]) then rest
      else
        var c := RemoveNoise(cs[0]);
        assert !IsNoise(c);
        [c] + rest
  }

  /** The text the reader keeps: the text of every text node below `n` that has
      no noise element between it and `n`, in document order. */
  function KeptText(n: Node): string
    decreases n, 1
  {
    match n
    case TextNode(d) => d
    case Element(_, _, cs) => KeptTextOfAll(cs)
  }

  function KeptTextOfAll(cs: seq<Node>): string
    decreases cs, 0
  {
    if |cs| == 0 then ""
    else (if IsNoise(cs[0]) then "" else KeptText(cs[0])) + KeptTextOfAll(cs[1..])
  }

  /** Removal drops exactly the noise: the text left below the node is all the
      text outside noise elements, in its original order. */
  lemma {:induction false} RemoveNoiseKeepsText(n: Node)
    ensures TextContent(RemoveNoise(n)) == KeptText(n)
    decreases n, 1
  {
    match n
    case TextNode(_) =>
    case Element(t, cls, cs) =>
      RemoveNoiseAllKeepsText(cs);
  }

  lemma {:induction false} RemoveNoiseAllKeepsText(cs: seq<Node>)
    ensures TextOfAll(RemoveNoiseAll(cs)) == KeptTextOfAll(cs)
    decreases cs, 0
  {
    if |cs| > 0 {
      RemoveNoiseAllKeepsText(cs[1..]);
      var rest := RemoveNoiseAll(cs[1..]);
      if !IsNoise(cs[0]) {
        RemoveNoiseKeepsText(cs[0]);
        var c := RemoveNoise(cs[0]);
        assert RemoveNoiseAll(cs) == [c] + rest;
        assert ([c] + rest)[1..] == rest;
      }
    }
  }

  /** Removal leaves a tree that has nothing left to remove. */
  lemma {:induction false} RemoveNoiseOfNoiseFree(n: Node)
    requires NoiseFree(n)
    ensures RemoveNoise(n) == n
    decreases n, 1
  {
    match n
    case TextNode(_) =>
    case Element(t, cls, cs) =>
      RemoveNoiseAllOfNoiseFree(cs);
  }

  lemma {:induction false} RemoveNoiseAllOfNoiseFree(cs: seq<Node>)
    requires forall k :: 0 <= k < |cs| ==> !IsNoise(cs[k]) && NoiseFree(cs[k])
    ensures RemoveNoiseAll(cs) == cs
    decreases cs, 0
  {
    if |cs| > 0 {
      RemoveNoiseOfNoiseFree(cs[0]);
      RemoveNoiseAllOfNoiseFree(cs[1..]);
      assert cs == [cs[0]] + cs[1..];
    }
  }

  /** Removing noise twice is the same as removing it once. */
  lemma RemoveNoiseIdempotent(n: Node)
    ensures RemoveNoise(RemoveNoise(n)) == RemoveNoise(n)
  {
    RemoveNoiseOfNoiseFree(RemoveNoise(n));
  }

  /** A parsed document: for each selector it answers, the first element that
      matches it; and `document.body`. */
  datatype Document = Document(matches: map<string, Node>, body: Option<Node>)

  /** `doc.querySelector(selector)`; `None` is `null`. */
  function QuerySelector(doc: Document, selector: string): Option<Node> {
    if selector in doc.matches then Some(doc.matches[selector]) else None
  }
}

=== FILE: extractor.dfy ===
/**
 * `fetchSubstackContent` (services/geminiService.ts): clean the URL, fetch the
 * page through the proxy, pick the content node, drop noise, normalise whitespace,
 * reject short text and truncate long text.
 *
 * The proxy request and the HTML parser are parameters: `fetch` maps the cleaned
 * URL to the proxy's JSON reply (`None` when the request or `response.json()`
 * throws) and `parse` maps the page source to a `Document`.
 */
module Extractor {
  import opened Wrappers
  import opened Text
  import opened WebUrl
  import opened Dom

  /** Shortest normalised text that is analysed. */
  const MinLength: nat := 100

  /** Longest text handed on; longer text is cut to this many characters. */
  const MaxLength: nat := 30000

  /** The one message every extraction failure is reported with. */
  const ExtractFailedMessage: string :=
    "Failed to extract content from the URL. Ensure it is a valid public Substack post."

  /** The content-container selectors, in the order they are tried; `document.body` comes last. */
  const ContentSelectors: seq<string> :=
    [".body.markup", ".available-content", ".post-content", "article", "main"]

  /** Why an extraction failed. Each cause is logged and then replaced by `ExtractFailedMessage`. */
  datatype ExtractError =
    | InvalidUrl          // `new URL(url)` throws
    | ProxyUnreachable    // `fetch` or `response.json()` throws
    | NoContentReceived   // `data.contents` is missing or empty
    | NoContentSection    // no selector matched and there is no body
    | TooShort            // fewer than `MinLength` characters after cleaning

  /** The JSON object the proxy answers with; only its `contents` field is read. */
  datatype ProxyReply = ProxyReply(contents: Option<string>)

  /** `c0 || c1 || ... || fallback` over nullable values: the first present
      candidate, or the fallback when every candidate is absent. */
  function FirstPresent<T>(candidates: seq<Option<T>>, fallback: Option<T>): (r: Option<T>)
    ensures (forall k :: 0 <= k < |candidates| ==> candidates[k].None?) ==> r == fallback
    ensures forall k :: (0 <= k < |candidates| && candidates[k].Some?
              && (forall j :: 0 <= j < k ==> candidates[j].None?)) ==> r == candidates[k]
  {
    if |candidates| == 0 then fallback
    else if candidates[0].Some? then candidates[0]
    else
      var r := FirstPresent(candidates[1..], fallback);
      assert forall k :: 1 <= k < |candidates| ==> candidates[k] == candidates[1..][k - 1];
      r
  }

  /** What each content selector resolves to in `doc`, in priority order. */
  function Candidates(doc: Document): (r: seq<Option<Node>>)
    ensures |r| == |ContentSelectors|
    ensures forall k :: 0 <= k < |r| ==> (r[k].Some? <==> ContentSelectors[k] in doc.matches)
    ensures forall k :: 0 <= k < |r| && r[k].Some? ==> r[k].value == doc.matches[ContentSelectors[k]]
  {
    seq(|ContentSelectors|, k requires 0 <= k < |ContentSelectors| => QuerySelector(doc, ContentSelectors[k]))
  }

  /** The node whose text is extracted: what the first matching content selector
      resolves to, or the body when none matches. */
  function ContentNode(doc: Document): (r: Option<Node>)
    ensures r.None? <==> doc.body.None? && forall k :: 0 <= k < |ContentSelectors| ==> ContentSelectors[k] !in doc.matches
    ensures r.Some? ==> (r == doc.body || exists k :: (0 <= k < |ContentSelectors|
              && ContentSelectors[k] in doc.matches && r.value == doc.matches[ContentSelectors[k]]))
  {
    var c := Candidates(doc);
    var r := FirstPresent(c, doc.body);
    ContentNodeFound(c, doc.body, r);
    r
  }

  /** The choice among candidates is one of them, or the fallback, and is absent
      only when all of them and the fallback are. */
  lemma {:induction false} ContentNodeFound<T>(c: seq<Option<T>>, fallback: Option<T>, r: Option<T>)
    requires r == FirstPresent(c, fallback)
    ensures r.None? <==> fallback.None? && forall k :: 0 <= k < |c| ==> c[k].None?
    ensures r.Some? ==> r == fallback || exists k :: 0 <= k < |c| && c[k] == r
  {
    if |c| > 0 && c[0].None? {
      ContentNodeFound(c[1..], fallback, r);
      assert forall k :: 1 <= k < |c| ==> c[k] == c[1..][k - 1];
      if r.Some? && r != fallback {
        var k :| 0 <= k < |c[1..]| && c[1..][k] == r;
        assert c[k + 1] == r;
      }
    }
  }

  /** The first selector that matches decides the content node: selector `k` wins
      if it matches and no selector before it does. */
  lemma ContentNodePriority(doc: Document, k: nat)
    requires k < |ContentSelectors| && ContentSelectors[k] in doc.matches
    requires forall j :: 0 <= j < k ==> ContentSelectors[j] !in doc.matches
    ensures ContentNode(doc) == Some(doc.matches[ContentSelectors[k]])
  {
    var c := Candidates(doc);
    assert c[k].Some? && forall j :: 0 <= j < k ==> c[j].None?;
  }

  /** The body is used when no content selector matches. */
  lemma ContentNodeFallsBackToBody(doc: Document)
    requires forall j :: 0 <= j < |ContentSelectors| ==> ContentSelectors[j] !in doc.matches
    ensures ContentNode(doc) == doc.body
  {
    var c := Candidates(doc);
    assert forall j :: 0 <= j < |c| ==> c[j].None?;
  }

  /** The text normalisation of the extractor: every whitespace run becomes one
      space, then the ends are trimmed. The result is the words of the text, in
      order, with one plain space between neighbours. */
  function CleanText(text: string): (r: string)
    ensures NoEdgeSpace(r) && SingleSpaced(r)
    ensures NonSpace(r) == NonSpace(text)
    ensures Words(r) == Words(text)
    ensures r == JoinWords(Words(text))
  {
    var collapsed := Collapse(text);
    var r := Trim(collapsed);
    SliceKeepsSingleSpaced(collapsed, r);
    CollapseKeepsWords(text);
    TrimKeepsWords(collapsed);
    SpacedIsJoinedWords(r);
    r
  }

  /** Cleaning cleaned text changes nothing. */
  lemma CleanTextIdempotent(text: string)
    ensures CleanText(CleanText(text)) == CleanText(text)
  {
    CollapseFixpoint(CleanText(text));
  }

  /** `s.slice(0, n)`: the longest prefix of `s` with at most `n` characters. */
  function Truncate(s: string, n: nat): (r: string)
    ensures |r| == if |s| <= n then |s| else n
    ensures r == s[..|r|]
  {
    if |s| <= n then s else s[..n]
  }

  /** The length gate on the content node's text: clean it, fail when it is shorter than
      `MinLength`, and otherwise hand on at most `MaxLength` characters of it. */
  function Gate(text: string): (r: Result<string, ExtractError>)
    ensures r.Failure? <==> |CleanText(text)| < MinLength
    ensures r.Failure? ==> r.error == TooShort
    ensures r.Success? ==> MinLength <= |r.value| <= MaxLength
    ensures r.Success? ==> |r.value| <= |CleanText(text)| && r.value == CleanText(text)[..|r.value|]
    ensures r.Success? && |CleanText(text)| <= MaxLength ==> r.value == CleanText(text)
    ensures r.Success? && |CleanText(text)| > MaxLength ==> |r.value| == MaxLength
  {
    var clean := CleanText(text);
    if |clean| < MinLength then Failure(TooShort)
    else Success(Truncate(clean, MaxLength))
  }

  /** Extraction from the cleaned URL on; `None` is a URL the constructor rejected. */
  function ExtractFrom(clean: Option<string>, fetch: string -> Option<ProxyReply>, parse: string -> Document)
    : (r: Result<string, ExtractError>)
    ensures r.Success? ==> MinLength <= |r.value| <= MaxLength
    ensures r.Failure? && r.error == InvalidUrl <==> clean.None?
  {
    match clean
    case None => Failure(InvalidUrl)
    case Some(c) =>
      match fetch(c)
      case None => Failure(ProxyUnreachable)
      case Some(reply) =>
        if reply.contents.None? || reply.contents.value == "" then Failure(NoContentReceived)
        else
          match ContentNode(parse(reply.contents.value))
          case None => Failure(NoContentSection)
          case Some(node) => Gate(TextContent(RemoveNoise(node)))
  }

  /** Extraction with the cause of a failure kept. */
  function Extract(url: string, fetch: string -> Option<ProxyReply>, parse: string -> Document)
    : Result<string, ExtractError>
  {
    ExtractFrom(CleanOf(url), fetch, parse)
  }

  /** `fetchSubstackContent`: every failure, whatever its cause, becomes the one
      generic message. */
  function FetchContent(url: string, fetch: string -> Option<ProxyReply>, parse: string -> Document)
    : (r: Result<string, string>)
    ensures r.Failure? ==> r.error == ExtractFailedMessage
    ensures r.Success? ==> MinLength <= |r.value| <= MaxLength
    ensures r.Success? <==> Extract(url, fetch, parse).Success?
  {
    match Extract(url, fetch, parse)
    case Success(text) => Success(text)
    case Failure(_) => Failure(ExtractFailedMessage)
  }

  /** Extraction sees the URL only through its cleaned form. */
  lemma ExtractionDependsOnCleanUrl(
    a: string, b: string, fetch: string -> Option<ProxyReply>, parse: string -> Document)
    requires CleanOf(a) == CleanOf(b)
    ensures FetchContent(a, fetch, parse) == FetchContent(b, fetch, parse)
  {
  }

  /** Tracking parameters and fragments do not change what is extracted: the proxy
      is asked for the same cleaned URL. */
  lemma ExtractionIgnoresQueryAndFragment(
    u: Url, query: Option<string>, fragment: Option<string>,
    fetch: string -> Option<ProxyReply>, parse: string -> Document)
    requires WellFormed(u) && (query.Some? ==> !Has(query.value, '#'))
    ensures FetchContent(Href(u.(query := query, fragment := fragment)), fetch, parse)
         == FetchContent(Href(u), fetch, parse)
  {
    var a := Href(u.(query := query, fragment := fragment));
    var b := Href(u);
    QueryAndFragmentIgnored(u, query, fragment);
    ExtractionDependsOnCleanUrl(a, b, fetch, parse);
  }

  /** With the page fetched and a content node found, only the length gate decides. */
  lemma ExtractFromNode(
    clean: string, fetch: string -> Option<ProxyReply>, parse: string -> Document,
    html: string, node: Node)
    requires fetch(clean) == Some(ProxyReply(Some(html))) && html != ""
    requires ContentNode(parse(html)) == Some(node)
    ensures ExtractFrom(Some(clean), fetch, parse) == Gate(TextContent(RemoveNoise(node)))
  {
    var reply := fetch(clean).value;
    assert reply.contents == Some(html);
    assert ExtractFrom(Some(clean), fetch, parse) == Gate(TextContent(RemoveNoise(node))) by {
      assert !(reply.contents.None? || reply.contents.value == "");
    }
  }

  /** Each early failure of the extraction is reported with the generic message:
      a URL the constructor rejects, a proxy request that throws, a reply without
      contents or with empty contents, and a page with no content node. */
  lemma EarlyFailuresReported(
    url: string, fetch: string -> Option<ProxyReply>, parse: string -> Document, html: string)
    ensures CleanOf(url).None? ==> FetchContent(url, fetch, parse) == Failure(ExtractFailedMessage)
    ensures (CleanOf(url).Some? && fetch(CleanOf(url).value).None?)
            ==> FetchContent(url, fetch, parse) == Failure(ExtractFailedMessage)
    ensures (CleanOf(url).Some? && fetch(CleanOf(url).value).Some?
             && (fetch(CleanOf(url).value).value.contents.None?
                 || fetch(CleanOf(url).value).value.contents.value == ""))
            ==> FetchContent(url, fetch, parse) == Failure(ExtractFailedMessage)
    ensures (CleanOf(url).Some? && fetch(CleanOf(url).value) == Some(ProxyReply(Some(html)))
             && html != "" && ContentNode(parse(html)).None?)
            ==> FetchContent(url, fetch, parse) == Failure(ExtractFailedMessage)
  {
  }

  /** Once the page has been fetched and a content node found, extraction succeeds
      exactly when the node's cleaned text reaches `MinLength`, and then yields that
      text cut to at most `MaxLength` characters. */
  lemma ExtractionFromContentNode(
    url: string, fetch: string -> Option<ProxyReply>, parse: string -> Document,
    clean: string, html: string, node: Node)
    requires CleanOf(url) == Some(clean)
    requires fetch(clean) == Some(ProxyReply(Some(html))) && html != ""
    requires ContentNode(parse(html)) == Some(node)
    ensures var text := CleanText(TextContent(RemoveNoise(node)));
            && (FetchContent(url, fetch, parse).Success? <==> |text| >= MinLength)
            && (FetchContent(url, fetch, parse).Success? ==>
                  FetchContent(url, fetch, parse).value == Truncate(text, MaxLength))
  {
    var text := CleanText(TextContent(RemoveNoise(node)));
    var gate := Gate(TextContent(RemoveNoise(node)));
    ExtractFromNode(clean, fetch, parse, html, node);
    assert Extract(url, fetch, parse) == gate;
    var r := FetchContent(url, fetch, parse);
    assert r.Success? <==> gate.Success?;
    if gate.Success? {
      assert r.value == gate.value;
      assert gate.value == Truncate(text, MaxLength);
    }
  }
}

=== FILE: input_section.dfy ===
/**
 * The URL rules of the input form (components/InputSection.tsx): the `url` state
 * holds the address with its scheme, the text box shows it without, and the form
 * submits the trimmed address.
 *
 * React state updates are modelled as functions from the input to the new state;
 * the clipboard read is the `text` argument of `Paste`.
 */
module InputSection {
  import opened Wrappers
  import opened Text
  import WebUrl

  /** The scheme put in front of an address typed or pasted without one. */
  const DefaultScheme: string := "https://"

  /** The scheme rule shared by the paste handler and the change handler: a value
      that begins with the four letters `http` is kept, any other value gets the
      default scheme in front. */
  function WithProtocol(v: string): (r: string)
    ensures StartsWith(r, "http")
    ensures r == v <==> StartsWith(v, "http")
  {
    if StartsWith(v, "http") then v else DefaultScheme + v
  }

  /** The text box shows the state without one leading `http://` or `https://`. */
  function DisplayValue(url: string): (r: string)
    ensures r == url || (StartsWith(url, "http://") && url == "http://" + r)
                     || (StartsWith(url, "https://") && url == "https://" + r)
    ensures StartsWith(url, "https://") || StartsWith(url, "http://") ==> |r| < |url|
  {
    if StartsWith(url, "https://") then url[8..]
    else if StartsWith(url, "http://") then url[7..]
    else url
  }

  /** The state after the text box changes to `v`. Clearing the box clears the
      state; any other value is stored with a scheme. */
  function OnChange(v: string): (r: string)
    ensures r == "" <==> v == ""
    ensures v != "" ==> StartsWith(r, "http")
  {
    if v == "" then "" else WithProtocol(v)
  }

  /** The default scheme holds no whitespace, so prefixing it adds exactly its
      own characters to the content. */
  lemma SchemeKeepsContent(s: string)
    ensures NonSpace(DefaultScheme + s) == DefaultScheme + NonSpace(s)
  {
    NonSpaceAppend(DefaultScheme, s);
    DefaultSchemeVisible();
    NonSpaceOfVisible(DefaultScheme);
  }

  lemma DefaultSchemeVisible()
    ensures forall i :: 0 <= i < |DefaultScheme| ==> !IsSpace(DefaultScheme[i])
  {
    assert !IsSpace('h') && !IsSpace('t') && !IsSpace('p') && !IsSpace('s');
    assert !IsSpace(':') && !IsSpace('/');
  }

  /** Adding the scheme neither puts whitespace at an edge nor adds anything but
      the scheme's own characters. */
  lemma ProtocolKeepsEdges(v: string)
    requires NoEdgeSpace(v)
    ensures NoEdgeSpace(WithProtocol(v))
    ensures NonSpace(WithProtocol(v)) == NonSpace(v)
         || NonSpace(WithProtocol(v)) == DefaultScheme + NonSpace(v)
  {
    if !StartsWith(v, "http") {
      var r := DefaultScheme + v;
      DefaultSchemeVisible();
      assert r[0] == DefaultScheme[0];
      assert r[|r| - 1] == if |v| == 0 then DefaultScheme[|DefaultScheme| - 1] else v[|v| - 1];
      SchemeKeepsContent(v);
    }
  }

  /** The state after pasting clipboard `text`: trimmed, and given a scheme unless
      it starts with `http`. */
  function Paste(text: string): (r: string)
    ensures StartsWith(r, "http")
    ensures NoEdgeSpace(r)
    ensures NonSpace(r) == NonSpace(text) || NonSpace(r) == DefaultScheme + NonSpace(text)
    ensures r == Trim(text) <==> StartsWith(Trim(text), "http")
    ensures r != Trim(text) ==> r == DefaultScheme + Trim(text)
  {
    var cleaned := Trim(text);
    ProtocolKeepsEdges(cleaned);
    WithProtocol(cleaned)
  }

  /** Submitting calls `onAnalyze` with the trimmed state when it is not blank;
      `None` means `onAnalyze` is not called. */
  function Submit(url: string): (r: Option<string>)
    ensures r.Some? <==> NonSpace(url) != ""
    ensures r.Some? ==> r.value != "" && NoEdgeSpace(r.value) && NonSpace(r.value) == NonSpace(url)
    ensures r.Some? ==> IsSlice(r.value, url)
  {
    var trimmed := Trim(url);
    if trimmed != "" then Some(trimmed) else None
  }

  /** Whether the submit button is disabled: while the state is blank or an
      analysis runs. */
  function SubmitDisabled(url: string, isAnalyzing: bool): (r: bool)
    ensures r <==> isAnalyzing || NonSpace(url) == ""
  {
    Trim(url) == "" || isAnalyzing
  }

  /** The button is enabled exactly when nothing is in progress and submitting
      would call `onAnalyze`. */
  lemma SubmitEnabledIffSubmits(url: string, isAnalyzing: bool)
    ensures !SubmitDisabled(url, isAnalyzing) <==> !isAnalyzing && Submit(url).Some?
  {
  }

  /** Submitting the form, by the button or by pressing Enter in the box. The
      browser refuses while the submit button is disabled, and while the box,
      a required field, shows nothing; only otherwise does the submit handler
      run. */
  function FormSubmit(url: string, isAnalyzing: bool): (r: Option<string>)
    ensures r.Some? <==> !isAnalyzing && DisplayValue(url) != "" && NonSpace(url) != ""
    ensures r.Some? ==> r == Submit(url)
  {
    if SubmitDisabled(url, isAnalyzing) || DisplayValue(url) == "" then None else Submit(url)
  }

  /** The button is enabled while the form refuses to submit exactly when the
      state is a bare `http://` or `https://`: the box then shows nothing, yet the
      state has content. */
  lemma {:induction false} EnabledButBlockedIffBareScheme(url: string, isAnalyzing: bool)
    ensures !SubmitDisabled(url, isAnalyzing) && FormSubmit(url, isAnalyzing).None?
            <==> !isAnalyzing && (url == "http://" || url == "https://")
  {
    if url == "http://" || url == "https://" {
      assert NonSpace(url) != "" by {
        assert url[0] == 'h' && !IsSpace(url[0]);
      }
      assert DisplayValue(url) == "" by {
        if url == "http://" {
          assert !StartsWith(url, "https://");
        }
      }
    } else if DisplayValue(url) == "" {
      assert url == "";
    }
  }

  /** Re-applying the change rule to a stored state keeps it. */
  lemma OnChangeIdempotent(v: string)
    ensures OnChange(OnChange(v)) == OnChange(v)
  {
  }

  /** Pasting non-blank text is typing its trimmed form into the box: both
      handlers apply the same scheme rule. */
  lemma PasteIsChangeOfTrimmed(text: string)
    requires NonSpace(text) != ""
    ensures Paste(text) == OnChange(Trim(text))
  {
  }

  /** Pasting the stored state again keeps it. */
  lemma PasteIdempotent(text: string)
    ensures Paste(Paste(text)) == Paste(text)
  {
  }

  /** What the user typed is what the text box shows: for a non-empty value that
      does not start with `http://` or `https://`, the stored state displays as
      the value itself. */
  lemma DisplayRoundTrip(v: string)
    requires v != "" && !StartsWith(v, "http://") && !StartsWith(v, "https://")
    ensures DisplayValue(OnChange(v)) == v
  {
    if !StartsWith(v, "http") {
      assert OnChange(v) == DefaultScheme + v;
      assert StartsWith(DefaultScheme + v, "https://");
    }
  }

  /** Editing the box of an `http://` address stores it as `https://`: the shown
      value is re-prefixed with the default scheme. */
  lemma EditingHttpAddressSwitchesToHttps(rest: string)
    requires rest != "" && !StartsWith(rest, "http")
    ensures OnChange(DisplayValue("http://" + rest)) == "https://" + rest
  {
    assert StartsWith("http://" + rest, "http://");
    assert !StartsWith("http://" + rest, "https://") by {
      assert ("http://" + rest)[4] == ':';
    }
    assert DisplayValue("http://" + rest) == rest;
  }

  /** Whether `url` begins with one of the two schemes the display strips. */
  predicate HasWebScheme(url: string) {
    StartsWith(url, "http://") || StartsWith(url, "https://")
  }

  /** The prefix test of both handlers accepts a host name beginning with `http`
      as if it carried a scheme, so the state is left without one, against the
      stated intent that the state always holds the full URL, and the URL
      constructor of the extractor then rejects it. */
  lemma HttpPrefixedHostKeepsNoScheme()
    ensures OnChange("httpbin.org/p/post") == "httpbin.org/p/post"
    ensures !HasWebScheme(OnChange("httpbin.org/p/post"))
    ensures WebUrl.CleanOf(OnChange("httpbin.org/p/post")).None?
  {
    var v := "httpbin.org/p/post";
    assert StartsWith(v, "http");
    assert v[..7][4] == 'b' && "http://"[4] == ':';
    assert v[..8][4] == 'b' && "https://"[4] == 's';
    assert !HasWebScheme(v);
    assert !WebUrl.Has(v, ':') by {
      forall i | 0 <= i < |v| ensures v[i] != ':' {
        assert v[i] in "httpbin.org/s";
      }
    }
    WebUrl.WithoutColonRejected(v);
  }

  /** The scheme rule as intended: a scheme is added unless the value already has
      `http://` or `https://`. The stored value then always carries a scheme and
      displays exactly as the value the user typed. */
  function WithWebScheme(v: string): (r: string)
    ensures HasWebScheme(r)
    ensures DisplayValue(r) == DisplayValue(v)
    ensures HasWebScheme(v) ==> r == v
  {
    if HasWebScheme(v) then v
    else
      assert StartsWith(DefaultScheme + v, "https://");
      DefaultScheme + v
  }

  /** Pasting blank clipboard text stores the bare default scheme: the box then
      shows nothing and the button is enabled, yet the form refuses to submit, so
      pressing the button only prompts for the empty required field. The submit
      handler would pass `https://` if it ran, and the URL constructor of the
      extractor rejects that too. */
  lemma BlankPasteStoresBareScheme()
    ensures Paste(" ") == DefaultScheme
    ensures DisplayValue(Paste(" ")) == ""
    ensures !SubmitDisabled(Paste(" "), false)
    ensures FormSubmit(Paste(" "), false).None?
    ensures Submit(Paste(" ")) == Some(DefaultScheme)
    ensures WebUrl.CleanOf(DefaultScheme).None?
  {
    assert IsSpace(' ');
    assert Trim(" ") == "" by {
      NonSpaceOfSpace(" ");
    }
    assert NoEdgeSpace(DefaultScheme) by {
      DefaultSchemeVisible();
    }
    DefaultSchemeIsBare();
    WebUrl.BareSchemeRejected("https");
  }

  /** The default scheme is the valid scheme `https` followed by `://`. */
  lemma DefaultSchemeIsBare()
    ensures WebUrl.ValidScheme("https") && DefaultScheme == "https" + "://"
  {
    assert WebUrl.IsAsciiLetter('h') && WebUrl.IsAsciiLetter('t');
    assert WebUrl.IsAsciiLetter('p') && WebUrl.IsAsciiLetter('s');
  }

  /** The paste handler as intended: blank clipboard text leaves the form as a
      cleared box does, and anything else is pasted as before. */
  function PasteWithoutBlank(text: string): (r: string)
    ensures NonSpace(text) == "" ==> r == "" && Submit(r).None? && DisplayValue(r) == ""
    ensures NonSpace(text) == "" ==> SubmitDisabled(r, false) && FormSubmit(r, false).None?
    ensures NonSpace(text) != "" ==> r == Paste(text) && Submit(r).Some?
  {
    var cleaned := Trim(text);
    if cleaned == "" then "" else Paste(text)
  }
}

=== FILE: text.dfy ===
/**
 * The JavaScript string built-ins the core relies on, over `string` (`seq<char>`):
 * the whitespace class matched by `\s`, `trim()`, `startsWith()`, and the
 * replacement of every whitespace run by one space.
 */
module Text {

  /** The code points that JavaScript's `\s` matches and that `trim()` removes:
      the WhiteSpace and LineTerminator characters of ECMAScript. */
  const SpaceChars: set<char> := {
    '\t', '\n', '\U{B}', '\U{C}', '\r', ' ', '\U{A0}', '\U{1680}',
    '\U{2000}', '\U{2001}', '\U{2002}', '\U{2003}', '\U{2004}', '\U{2005}',
    '\U{2006}', '\U{2007}', '\U{2008}', '\U{2009}', '\U{200A}',
    '\U{2028}', '\U{2029}', '\U{202F}', '\U{205F}', '\U{3000}', '\U{FEFF}'
  }

  predicate IsSpace(c: char) {
    c in SpaceChars
  }

  predicate AllSpace(s: string) {
    forall i :: 0 <= i < |s| ==> IsSpace(s[i])
  }

  /** No whitespace at either end. */
  predicate NoEdgeSpace(s: string) {
    |s| == 0 || (!IsSpace(s[0]) && !IsSpace(s[|s| - 1]))
  }

  /** Every whitespace character is a plain space, and no two whitespace characters are adjacent. */
  predicate SingleSpaced(s: string) {
    && (forall i :: 0 <= i < |s| && IsSpace(s[i]) ==> s[i] == ' ')
    && (forall i :: 0 <= i < |s| - 1 ==> !IsSpace(s[i]) || !IsSpace(s[i + 1]))
  }

  /** `r` occurs in `s` as one contiguous piece. */
  predicate IsSlice(r: string, s: string) {
    exists i, j :: 0 <= i <= j <= |s| && s[i..j] == r
  }

  /** What `s.startsWith(p)` answers. */
  predicate StartsWith(s: string, p: string) {
    |p| <= |s| && s[..|p|] == p
  }

  /** The characters of `s` that are not whitespace, in order: the content that
      whitespace handling must not touch. */
  function NonSpace(s: string): string
  {
    if |s| == 0 then ""
    else (if IsSpace(s[0]) then "" else [s[0]]) + NonSpace(s[1..])
  }

  lemma {:induction false} NonSpaceAppend(a: string, b: string)
    ensures NonSpace(a + b) == NonSpace(a) + NonSpace(b)
  {
    if |a| == 0 {
      assert a + b == b;
    } else {
      assert (a + b)[1..] == a[1..] + b;
      NonSpaceAppend(a[1..], b);
    }
  }

  lemma {:induction false} NonSpaceOfSpace(a: string)
    requires AllSpace(a)
    ensures NonSpace(a) == ""
  {
    if |a| > 0 {
      NonSpaceOfSpace(a[1..]);
    }
  }

  /** Text without whitespace is its own content. */
  lemma {:induction false} NonSpaceOfVisible(a: string)
    requires forall i :: 0 <= i < |a| ==> !IsSpace(a[i])
    ensures NonSpace(a) == a
  {
    if |a| > 0 {
      NonSpaceOfVisible(a[1..]);
      assert a == [a[0]] + a[1..];
    }
  }

  /** The whitespace-free prefix removal of `trimStart()`: the longest suffix of
      `s` that does not begin with whitespace. */
  function TrimStart(s: string): (r: string)
    ensures |r| <= |s| && r == s[|s| - |r|..]
    ensures forall i :: 0 <= i < |s| - |r| ==> IsSpace(s[i])
    ensures |r| > 0 ==> !IsSpace(r[0])
  {
    if |s| > 0 && IsSpace(s[0]) then
      var r := TrimStart(s[1..]);
      assert forall i :: 1 <= i < |s| - |r| ==> s[i] == s[1..][i - 1];
      r
    else s
  }

  /** The longest prefix of `s` that does not end with whitespace. */
  function TrimEnd(s: string): (r: string)
    ensures |r| <= |s| && r == s[..|r|]
    ensures forall i :: |r| <= i < |s| ==> IsSpace(s[i])
    ensures |r| > 0 ==> !IsSpace(r[|r| - 1])
  {
    if |s| > 0 && IsSpace(s[|s| - 1]) then
      var r := TrimEnd(s[..|s| - 1]);
      assert forall i :: |r| <= i < |s| - 1 ==> s[i] == s[..|s| - 1][i];
      r
    else s
  }

  /** Dropping a whitespace prefix keeps the content. */
  lemma DropPrefixKeepsContent(s: string, k: nat)
    requires k <= |s| && forall i :: 0 <= i < k ==> IsSpace(s[i])
    ensures NonSpace(s[k..]) == NonSpace(s)
  {
    var a := s[..k];
    assert s == a + s[k..];
    assert AllSpace(a) by {
      forall i | 0 <= i < |a| ensures IsSpace(a[i]) {
        assert a[i] == s[i];
      }
    }
    NonSpaceAppend(a, s[k..]);
    NonSpaceOfSpace(a);
  }

  /** Dropping a whitespace suffix keeps the content. */
  lemma DropSuffixKeepsContent(s: string, m: nat)
    requires m <= |s| && forall i :: m <= i < |s| ==> IsSpace(s[i])
    ensures NonSpace(s[..m]) == NonSpace(s)
  {
    var c := s[m..];
    assert s == s[..m] + c;
    assert AllSpace(c) by {
      forall i | 0 <= i < |c| ensures IsSpace(c[i]) {
        assert c[i] == s[m + i];
      }
    }
    NonSpaceAppend(s[..m], c);
    NonSpaceOfSpace(c);
  }

  /** Trimming the end of a string that does not start with whitespace leaves no
      whitespace at either end. */
  lemma TrimmedEdges(t: string, r: string)
    requires |t| > 0 ==> !IsSpace(t[0])
    requires r == TrimEnd(t)
    ensures NoEdgeSpace(r)
  {
    if |r| > 0 {
      assert r[0] == t[0];
    }
  }

  /** Both trims together cut a slice out of `s`. */
  lemma TrimmedSlice(s: string, t: string, r: string)
    requires t == TrimStart(s) && r == TrimEnd(t)
    ensures IsSlice(r, s)
  {
    var k := |s| - |t|;
    assert t == s[k..] && r == t[..|r|];
    assert s[k..k + |r|] == s[k..][..|r|];
    assert 0 <= k <= k + |r| <= |s| && s[k..k + |r|] == r;
  }

  /** `trimStart()` drops only whitespace. */
  lemma TrimStartContent(s: string)
    ensures NonSpace(TrimStart(s)) == NonSpace(s)
  {
    DropPrefixKeepsContent(s, |s| - |TrimStart(s)|);
  }

  /** `trimEnd()` drops only whitespace. */
  lemma TrimEndContent(t: string)
    ensures NonSpace(TrimEnd(t)) == NonSpace(t)
  {
    DropSuffixKeepsContent(t, |TrimEnd(t)|);
  }

  /** Text without whitespace at its ends is left as it is. */
  lemma TrimmedKeepsTrimmed(s: string, t: string, r: string)
    requires t == TrimStart(s) && r == TrimEnd(t)
    ensures NoEdgeSpace(s) ==> r == s
  {
    if NoEdgeSpace(s) && |s| > 0 {
      assert |t| == |s|;
      assert t == s;
      assert |r| == |t|;
    }
  }

  /** `s.trim()`: a contiguous piece of `s` with no whitespace at its ends,
      obtained by dropping only whitespace. */
  function Trim(s: string): (r: string)
    ensures NoEdgeSpace(r)
    ensures IsSlice(r, s)
    ensures NonSpace(r) == NonSpace(s)
    ensures NoEdgeSpace(s) ==> r == s
  {
    var t := TrimStart(s);
    var r := TrimEnd(t);
    TrimmedEdges(t, r);
    TrimmedSlice(s, t, r);
    TrimStartContent(s);
    TrimEndContent(t);
    TrimmedKeepsTrimmed(s, t, r);
    r
  }

  /** The global whitespace-run replacement: every maximal run of whitespace
      becomes one plain space. */
  function Collapse(s: string): (r: string)
    ensures SingleSpaced(r)
    ensures NonSpace(r) == NonSpace(s)
    ensures |r| == 0 <==> |s| == 0
    ensures |s| > 0 ==> r[0] == (if IsSpace(s[0]) then ' ' else s[0])
    ensures |s| > 0 ==> r[|r| - 1] == (if IsSpace(s[|s| - 1]) then ' ' else s[|s| - 1])
    decreases |s|
  {
    if |s| == 0 then ""
    else if IsSpace(s[0]) then
      var t := TrimStart(s);
      var r := " " + Collapse(t);
      assert s == s[..|s| - |t|] + t;
      NonSpaceAppend(s[..|s| - |t|], t);
      NonSpaceOfSpace(s[..|s| - |t|]);
      r
    else
      [s[0]] + Collapse(s[1..])
  }

  /** A string that is already single-spaced is left alone by the collapse. */
  lemma {:induction false} CollapseFixpoint(s: string)
    requires SingleSpaced(s)
    ensures Collapse(s) == s
  {
    if |s| > 0 {
      assert SingleSpaced(s[1..]);
      if IsSpace(s[0]) {
        assert TrimStart(s[1..]) == s[1..];
        CollapseFixpoint(s[1..]);
        assert s == " " + s[1..];
      } else {
        CollapseFixpoint(s[1..]);
        assert s == [s[0]] + s[1..];
      }
    }
  }

  /** Single spacing survives taking any contiguous piece. */
  lemma SliceKeepsSingleSpaced(s: string, r: string)
    requires SingleSpaced(s) && IsSlice(r, s)
    ensures SingleSpaced(r)
  {
    var i, j :| 0 <= i <= j <= |s| && s[i..j] == r;
    assert forall k :: 0 <= k < |r| ==> r[k] == s[i + k];
  }

  /** The words of `s`: its maximal runs of non-whitespace characters, in order.
      A character joins the word of its successor when both are non-whitespace. */
  function Words(s: string): (r: seq<string>)
    ensures forall k :: 0 <= k < |r| ==> r[k] != ""
    ensures |s| > 0 && !IsSpace(s[0]) ==> |r| > 0 && r[0][0] == s[0]
    ensures r == [] <==> AllSpace(s)
    decreases |s|
  {
    if |s| == 0 then []
    else
      var ws := Words(s[1..]);
      assert forall i :: 0 <= i < |s| - 1 ==> s[1..][i] == s[i + 1];
      if IsSpace(s[0]) then ws
      else if |s| > 1 && !IsSpace(s[1]) then [[s[0]] + ws[0]] + ws[1..]
      else [[s[0]]] + ws
  }

  /** Words separated by one plain space each: the inverse of `Words` on
      single-spaced text without whitespace at its ends. */
  function JoinWords(ws: seq<string>): string {
    if |ws| == 0 then "" else ws[0] + SpaceEach(ws[1..])
  }

  /** Each word with one plain space in front of it. */
  function SpaceEach(ws: seq<string>): string {
    if |ws| == 0 then "" else " " + ws[0] + SpaceEach(ws[1..])
  }

  /** Leading whitespace separates no words. */
  lemma {:induction false} WordsOfSpacePrefix(s: string, k: nat)
    requires k <= |s| && forall i :: 0 <= i < k ==> IsSpace(s[i])
    ensures Words(s[k..]) == Words(s)
  {
    if k > 0 {
      assert IsSpace(s[0]);
      assert s[1..][k - 1..] == s[k..];
      WordsOfSpacePrefix(s[1..], k - 1);
    }
  }

  /** Trailing whitespace separates no words. */
  lemma {:induction false} WordsAppendSpace(a: string, b: string)
    requires AllSpace(b)
    ensures Words(a + b) == Words(a)
    decreases |a|
  {
    if |a| == 0 {
      assert a + b == b;
    } else {
      var s := a + b;
      assert s[0] == a[0];
      assert s[1..] == a[1..] + b;
      WordsAppendSpace(a[1..], b);
      if |a| == 1 && |s| > 1 {
        assert s[1] == b[0];
      } else if |a| > 1 {
        assert s[1] == a[1];
      }
    }
  }

  /** A whitespace character in front adds no word. */
  lemma SpaceAddsNoWord(c: char, x: string)
    requires IsSpace(c)
    ensures Words([c] + x) == Words(x)
  {
    assert ([c] + x)[1..] == x;
  }

  /** Replacing every whitespace run by one space keeps the words: it neither
      glues two words together nor splits one. */
  lemma {:induction false} CollapseKeepsWords(s: string)
    ensures Words(Collapse(s)) == Words(s)
    decreases |s|
  {
    if |s| == 0 {
    } else if IsSpace(s[0]) {
      var t := TrimStart(s);
      assert |t| < |s|;
      CollapseKeepsWords(t);
      assert IsSpace(' ');
      SpaceAddsNoWord(' ', Collapse(t));
      WordsOfSpacePrefix(s, |s| - |t|);
    } else {
      var c := Collapse(s[1..]);
      CollapseKeepsWords(s[1..]);
      var x := [s[0]] + c;
      assert Collapse(s) == x;
      assert x[0] == s[0] && x[1..] == c;
      assert |c| == 0 <==> |s| == 1;
      if |s| > 1 {
        assert x[1] == c[0];
      }
    }
  }

  /** Trimming keeps the words. */
  lemma TrimKeepsWords(s: string)
    ensures Words(Trim(s)) == Words(s)
  {
    var t := TrimStart(s);
    var r := TrimEnd(t);
    assert Trim(s) == r;
    WordsOfSpacePrefix(s, |s| - |t|);
    WordsOfSpaceSuffix(t, |r|);
  }

  /** Dropping a whitespace suffix keeps the words. */
  lemma WordsOfSpaceSuffix(t: string, m: nat)
    requires m <= |t| && forall i :: m <= i < |t| ==> IsSpace(t[i])
    ensures Words(t[..m]) == Words(t)
  {
    var tail := t[m..];
    assert t == t[..m] + tail;
    assert AllSpace(tail) by {
      forall i | 0 <= i < |tail| ensures IsSpace(tail[i]) {
        assert tail[i] == t[m + i];
      }
    }
    WordsAppendSpace(t[..m], tail);
  }

  /** Single-spaced text without whitespace at its ends is its words joined by
      single spaces. */
  lemma {:induction false} SpacedIsJoinedWords(r: string)
    requires SingleSpaced(r) && NoEdgeSpace(r)
    ensures r == JoinWords(Words(r))
    decreases |r|
  {
    if |r| > 1 {
      SuffixSingleSpaced(r, 1);
      if !IsSpace(r[1]) {
        assert r[1..][0] == r[1] && r[1..][|r| - 2] == r[|r| - 1];
        SpacedIsJoinedWords(r[1..]);
        WordContinues(r);
      } else {
        assert |r| > 2;
        SuffixSingleSpaced(r, 2);
        assert r[2..][0] == r[2] && r[2..][|r| - 3] == r[|r| - 1];
        SpacedIsJoinedWords(r[2..]);
        WordEndsAtSpace(r);
      }
    }
  }

  /** A suffix of single-spaced text is single-spaced. */
  lemma SuffixSingleSpaced(r: string, k: nat)
    requires SingleSpaced(r) && k <= |r|
    ensures SingleSpaced(r[k..])
  {
    assert r[k..|r|] == r[k..];
    SliceKeepsSingleSpaced(r, r[k..]);
  }

  /** A word character followed by a word character extends the first word. */
  lemma WordContinues(r: string)
    requires |r| > 1 && !IsSpace(r[0]) && !IsSpace(r[1])
    requires r[1..] == JoinWords(Words(r[1..]))
    ensures r == JoinWords(Words(r))
  {
    var ws := Words(r[1..]);
    assert Words(r) == [[r[0]] + ws[0]] + ws[1..];
    JoinFirstGrows(r[0], ws[0], ws[1..]);
    assert [ws[0]] + ws[1..] == ws;
    assert r == [r[0]] + r[1..];
  }

  /** A word character followed by one space ends a word of one character. */
  lemma WordEndsAtSpace(r: string)
    requires |r| > 2 && !IsSpace(r[0]) && r[1] == ' ' && !IsSpace(r[2])
    requires r[2..] == JoinWords(Words(r[2..]))
    ensures r == JoinWords(Words(r))
  {
    var after := r[2..];
    assert r[1..] == [r[1]] + after;
    SpaceAddsNoWord(r[1], after);
    assert Words(r) == [[r[0]]] + Words(after);
    JoinSecond([r[0]], Words(after));
    assert r == [r[0]] + " " + after;
  }

  /** Growing the first word at its front grows the joined text at its front. */
  lemma JoinFirstGrows(c: char, w: string, rest: seq<string>)
    ensures JoinWords([[c] + w] + rest) == [c] + JoinWords([w] + rest)
  {
    var v := [[c] + w] + rest;
    var u := [w] + rest;
    assert v[0] == [c] + w && v[1..] == rest;
    assert u[0] == w && u[1..] == rest;
    assert ([c] + w) + SpaceEach(rest) == [c] + (w + SpaceEach(rest));
  }

  /** A first word followed by further words is joined to them by one space. */
  lemma JoinSecond(w: string, rest: seq<string>)
    requires |rest| > 0
    ensures JoinWords([w] + rest) == w + " " + JoinWords(rest)
  {
    var u := [w] + rest;
    assert u[0] == w && u[1..] == rest;
    assert SpaceEach(rest) == " " + rest[0] + SpaceEach(rest[1..]);
  }
}

=== FILE: types.dfy ===
/** The records of types.ts shared by the service and the display. */
module Types {

  /** A web page cited by the analysis. */
  datatype Source = Source(title: string, uri: string)

  /** `ReviewResponse`: the review text and the pages it cites, in citation order. */
  datatype ReviewResponse = ReviewResponse(markdown: string, sources: seq<Source>)
}

=== FILE: weburl.dfy ===
/**
 * The part of the WHATWG URL parser that the extractor depends on: constructing a
 * URL from the input and keeping its origin followed by its path name
 * (services/geminiService.ts).
 *
 * Only the hierarchical form `scheme "://" authority path ["?" query] ["#" fragment]`
 * is accepted; every other input is a parse failure, which is how `new URL` signals
 * an invalid URL (it throws).
 */
module WebUrl {
  import opened Wrappers
  import opened Text

  /** A parsed URL; `authority` is everything between `//` and the path, user info included. */
  datatype Url = Url(
    scheme: string,
    authority: string,
    path: string,
    query: Option<string>,
    fragment: Option<string>)

  /** Position of the first `c` in `s`, or `|s|` when `s` has none. */
  function IndexOf(s: string, c: char): (k: nat)
    ensures k <= |s|
    ensures k < |s| ==> s[k] == c
    ensures forall i :: 0 <= i < k ==> s[i] != c
  {
    if |s| == 0 then 0
    else if s[0] == c then 0
    else 1 + IndexOf(s[1..], c)
  }

  /** The first occurrence is determined by its defining property. */
  lemma IndexOfIs(s: string, c: char, k: nat)
    requires k <= |s|
    requires k < |s| ==> s[k] == c
    requires forall i :: 0 <= i < k ==> s[i] != c
    ensures IndexOf(s, c) == k
  {
  }

  /** A piece of a string lacking `c` lacks `c`. */
  lemma SliceLacks(s: string, c: char, i: nat, j: nat)
    requires !Has(s, c) && i <= j <= |s|
    ensures !Has(s[i..j], c)
  {
    assert forall k :: 0 <= k < j - i ==> s[i..j][k] == s[i + k];
  }

  /** Everything before the first `c` lacks `c`. */
  lemma BeforeFirstLacks(s: string, c: char)
    ensures !Has(s[..IndexOf(s, c)], c)
  {
  }

  /** Whether `s` contains the character `c` at all. */
  predicate Has(s: string, c: char) {
    c in s
  }

  predicate IsAsciiLetter(c: char) {
    ('a' <= c <= 'z') || ('A' <= c <= 'Z')
  }

  predicate IsSchemeChar(c: char) {
    IsAsciiLetter(c) || ('0' <= c <= '9') || c == '+' || c == '-' || c == '.'
  }

  /** A scheme is an ASCII letter followed by letters, digits, `+`, `-` or `.`. */
  predicate ValidScheme(s: string) {
    |s| > 0 && IsAsciiLetter(s[0]) && forall i :: 0 <= i < |s| ==> IsSchemeChar(s[i])
  }

  function LowerChar(c: char): char {
    if 'A' <= c <= 'Z' then (c as int + 32) as char else c
  }

  /** ASCII lower-casing, as the parser applies to schemes and hosts. */
  function LowerAscii(s: string): (r: string)
    ensures |r| == |s|
    ensures forall i :: 0 <= i < |s| ==> r[i] == LowerChar(s[i])
  {
    seq(|s|, i requires 0 <= i < |s| => LowerChar(s[i]))
  }

  /** Schemes with an origin made of scheme, host and port; every other scheme has the opaque origin "null". */
  const TupleOriginSchemes: set<string> := {"ftp", "http", "https", "ws", "wss"}

  /** The special schemes, whose empty path is written as "/". */
  const SpecialSchemes: set<string> := {"ftp", "file", "http", "https", "ws", "wss"}

  /** The host and port of an authority: what follows its last `@`. */
  function HostPort(authority: string): (r: string)
    ensures !Has(r, '@')
    ensures |r| <= |authority| && r == authority[|authority| - |r|..]
    ensures !Has(authority, '@') ==> r == authority
    decreases |authority|
  {
    var k := IndexOf(authority, '@');
    if k == |authority| then authority
    else HostPort(authority[k + 1..])
  }

  /** The shape every parsed URL has. */
  predicate WellFormed(u: Url) {
    && ValidScheme(u.scheme)
    && LowerAscii(u.scheme) == u.scheme
    && HostPort(u.authority) != ""
    && !Has(u.authority, '/') && !Has(u.authority, '?') && !Has(u.authority, '#')
    && !Has(u.path, '?') && !Has(u.path, '#')
    && (u.path == "" || u.path[0] == '/')
    && (u.query.Some? ==> !Has(u.query.value, '#'))
  }

  /** `s` cut at its first `c`: the part before it, and the part after it when `c` occurs. */
  function SplitAt(s: string, c: char): (r: (string, Option<string>))
    ensures !Has(r.0, c)
    ensures r.1.None? ==> r.0 == s
    ensures r.1.Some? ==> s == r.0 + [c] + r.1.value
  {
    var k := IndexOf(s, c);
    BeforeFirstLacks(s, c);
    if k == |s| then (s, None)
    else
      assert s == s[..k] + [c] + s[k + 1..];
      (s[..k], Some(s[k + 1..]))
  }

  /** A concatenation lacking `c` has parts lacking `c`. */
  lemma PartsLack(a: string, b: string, c: char)
    requires !Has(a + b, c)
    ensures !Has(a, c) && !Has(b, c)
  {
    assert forall i :: 0 <= i < |a| ==> (a + b)[i] == a[i];
    assert forall i :: 0 <= i < |b| ==> (a + b)[|a| + i] == b[i];
  }

  /** Cutting a string lacking `d` gives pieces lacking `d`. */
  lemma SplitKeepsLack(s: string, c: char, d: char)
    requires !Has(s, d)
    ensures !Has(SplitAt(s, c).0, d)
    ensures SplitAt(s, c).1.Some? ==> !Has(SplitAt(s, c).1.value, d)
  {
    var r := SplitAt(s, c);
    if r.1.Some? {
      PartsLack(r.0 + [c], r.1.value, d);
      PartsLack(r.0, [c], d);
    }
  }

  /** The scheme, authority and path of a URL without query and fragment. */
  datatype Hierarchy = Hierarchy(rawScheme: string, authority: string, path: string)

  /** Splits `authority path`: the authority ends at the first `/`, and must name a host. */
  function SplitAuthority(hier: string): (r: Option<(string, string)>)
    ensures r.Some? ==> hier == r.value.0 + r.value.1
    ensures r.Some? ==> HostPort(r.value.0) != "" && !Has(r.value.0, '/')
    ensures r.Some? ==> r.value.1 == "" || r.value.1[0] == '/'
  {
    var p := IndexOf(hier, '/');
    BeforeFirstLacks(hier, '/');
    if HostPort(hier[..p]) == "" then None
    else
      assert hier == hier[..p] + hier[p..];
      Some((hier[..p], hier[p..]))
  }

  /** Whether `s` has a valid scheme ending at its `:` at position `c`, followed by `//`. */
  predicate SchemeAt(s: string, c: nat) {
    c < |s| && ValidScheme(s[..c]) && StartsWith(s[c + 1..], "//")
  }

  /** Splits `scheme "://" authority path`; the scheme ends at the first `:`. */
  function ParseHierarchy(s: string): (r: Option<Hierarchy>)
    ensures r.Some? ==> s == r.value.rawScheme + "://" + r.value.authority + r.value.path
    ensures r.Some? ==> ValidScheme(r.value.rawScheme) && HostPort(r.value.authority) != ""
    ensures r.Some? ==> !Has(r.value.authority, '/') && (r.value.path == "" || r.value.path[0] == '/')
  {
    var c := IndexOf(s, ':');
    if !SchemeAt(s, c) then None
    else
      var rest := SplitAuthority(s[c + 3..]);
      if rest.None? then None
      else
        RejoinScheme(s, c);
        Regroup(s, s[..c] + "://", s[c + 3..], rest.value.0, rest.value.1);
        Some(Hierarchy(s[..c], rest.value.0, rest.value.1))
  }

  /** Concatenation regroups: a string made of `pre` and `authority + path` is `pre`,
      `authority` and `path` in turn. */
  lemma Regroup(s: string, pre: string, hier: string, authority: string, path: string)
    requires s == pre + hier && hier == authority + path
    ensures s == pre + authority + path
  {
  }

  /** A string with `://` at position `c` is the scheme before it, `://`, and the rest. */
  lemma RejoinScheme(s: string, c: nat)
    requires c < |s| && s[c] == ':' && StartsWith(s[c + 1..], "//")
    ensures s == s[..c] + "://" + s[c + 3..]
  {
    assert s[c + 1] == s[c + 1..][..2][0] && s[c + 2] == s[c + 1..][..2][1];
    assert s[c..c + 3] == "://";
    assert s == s[..c] + s[c..c + 3] + s[c + 3..];
  }

  /** Text without a `:` has no scheme, so the URL constructor rejects it. */
  lemma WithoutColonRejected(s: string)
    requires !Has(s, ':')
    ensures CleanOf(s) == None
  {
    var (beforeHash, _) := SplitAt(s, '#');
    SplitKeepsLack(s, '#', ':');
    var (beforeQuery, _) := SplitAt(beforeHash, '?');
    SplitKeepsLack(beforeHash, '?', ':');
    IndexOfIs(beforeQuery, ':', |beforeQuery|);
  }

  /** Authority and path of a string lacking `d` lack `d`. */
  lemma HierarchyKeepsLack(s: string, d: char)
    requires !Has(s, d) && ParseHierarchy(s).Some?
    ensures !Has(ParseHierarchy(s).value.authority, d) && !Has(ParseHierarchy(s).value.path, d)
  {
    var h := ParseHierarchy(s).value;
    PartsLack(h.rawScheme + "://" + h.authority, h.path, d);
    PartsLack(h.rawScheme + "://", h.authority, d);
  }

  /** Lower-casing a valid scheme keeps it valid, and lower-casing twice changes nothing. */
  lemma LowerScheme(s: string)
    requires ValidScheme(s)
    ensures ValidScheme(LowerAscii(s)) && LowerAscii(LowerAscii(s)) == LowerAscii(s)
  {
  }

  /** `new URL(s)`: the fragment starts at the first `#`, the query at the first `?`
      before it, then scheme, authority and path as `ParseHierarchy` splits them.
      `None` stands for the exception the constructor throws. */
  function Parse(s: string): (r: Option<Url>)
    ensures r.Some? ==> WellFormed(r.value)
  {
    var (beforeHash, fragment) := SplitAt(s, '#');
    var (beforeQuery, query) := SplitAt(beforeHash, '?');
    SplitKeepsLack(beforeHash, '?', '#');
    match ParseHierarchy(beforeQuery)
    case None => None
    case Some(h) =>
      HierarchyKeepsLack(beforeQuery, '?');
      HierarchyKeepsLack(beforeQuery, '#');
      LowerScheme(h.rawScheme);
      Some(Url(LowerAscii(h.rawScheme), h.authority, h.path, query, fragment))
  }

  /** The `href` serialisation of a parsed URL. */
  function Href(u: Url): string {
    HrefBase(u) + Suffix('?', u.query) + Suffix('#', u.fragment)
  }

  /** Scheme, `://`, authority and path: the URL without query and fragment. */
  function HrefBase(u: Url): string {
    u.scheme + "://" + u.authority + u.path
  }

  /** An optional part with the delimiter `c` that introduces it. */
  function Suffix(c: char, part: Option<string>): string {
    if part.Some? then [c] + part.value else ""
  }

  /** The origin of a URL: scheme, host and port for the schemes that have one,
      "null" for every other scheme. User information never appears in it, and
      it is lower case throughout. */
  function Origin(u: Url): (r: string)
    ensures r == "null" <==> u.scheme !in TupleOriginSchemes
    ensures u.scheme in TupleOriginSchemes ==> StartsWith(r, u.scheme + "://") && !Has(r, '@')
    ensures u.scheme in TupleOriginSchemes ==> LowerAscii(r) == r
  {
    if u.scheme in TupleOriginSchemes then
      var host := LowerAscii(HostPort(u.authority));
      var r := u.scheme + "://" + host;
      TupleOriginShape(u.scheme, host);
      r
    else "null"
  }

  /** A tuple origin is lower case, free of `@`, and never the opaque "null". */
  lemma TupleOriginShape(scheme: string, host: string)
    requires scheme in TupleOriginSchemes && !Has(host, '@') && LowerAscii(host) == host
    ensures var r := scheme + "://" + host;
      StartsWith(r, scheme + "://") && !Has(r, '@') && LowerAscii(r) == r && r != "null"
  {
    var pre := scheme + "://";
    var r := pre + host;
    assert r[|scheme|] == ':';
    assert !Has(pre, '@') && LowerAscii(pre) == pre;
    JoinLacks(pre, host, '@');
    LowerAppend(pre, host);
    assert r[..|pre|] == pre;
    assert "null"[3] == 'l';
  }

  /** Lower-casing works character by character, so it distributes over concatenation. */
  lemma LowerAppend(a: string, b: string)
    ensures LowerAscii(a + b) == LowerAscii(a) + LowerAscii(b)
  {
  }

  /** The path name of a URL: its path, where an empty path of a special scheme
      is written as "/". */
  function Pathname(u: Url): (r: string)
    ensures r == u.path || (u.path == "" && r == "/")
    ensures r == "" <==> u.path == "" && u.scheme !in SpecialSchemes
    ensures (u.path == "" || u.path[0] == '/') ==> r == "" || r[0] == '/'
  {
    if u.path == "" && u.scheme in SpecialSchemes then "/" else u.path
  }

  /** The cleaned URL the extractor fetches: origin followed by path. It keeps
      nothing of the query and the fragment. */
  function CleanUrl(u: Url): (r: string)
    ensures WellFormed(u) ==> !Has(r, '?') && !Has(r, '#')
    ensures StartsWith(r, Origin(u))
  {
    var r := Origin(u) + Pathname(u);
    assert r[..|Origin(u)|] == Origin(u);
    if WellFormed(u) then
      OriginPathLacks(u);
      r
    else r
  }

  /** Cutting at the first `c` finds the `c` placed after a `c`-free prefix. */
  lemma SplitAtFinds(a: string, c: char, b: Option<string>)
    requires !Has(a, c)
    ensures SplitAt(a + Suffix(c, b), c) == (a, b)
  {
    var s := a + Suffix(c, b);
    forall i | 0 <= i < |a|
      ensures s[i] != c
    {
      assert s[i] == a[i] && a[i] in a;
    }
    if b.Some? {
      assert s == a + [c] + b.value;
      assert s[|a|] == c;
      IndexOfIs(s, c, |a|);
      assert s[..|a|] == a;
      assert s[|a| + 1..] == b.value;
    } else {
      assert s == a;
      IndexOfIs(s, c, |a|);
    }
  }

  /** Scheme characters include neither `:` nor the URL delimiters. */
  lemma SchemeLacks(s: string, c: char)
    requires ValidScheme(s) && (c == ':' || c == '/' || c == '?' || c == '#')
    ensures !Has(s, c)
  {
  }

  /** In `scheme "://" rest` the first `:` ends the scheme and `//` follows it. */
  lemma SchemeSeparator(s: string, scheme: string, hier: string)
    requires s == scheme + "://" + hier && ValidScheme(scheme)
    ensures IndexOf(s, ':') == |scheme|
    ensures s[..|scheme|] == scheme && StartsWith(s[|scheme| + 1..], "//") && s[|scheme| + 3..] == hier
  {
    SchemeLacks(scheme, ':');
    assert s[..|scheme|] == scheme;
    IndexOfIs(s, ':', |scheme|);
    assert s[|scheme| + 1..][..2] == "//";
    assert s[|scheme| + 3..] == hier;
  }

  /** In `authority path` the first `/` ends the authority. */
  lemma AuthorityEnd(authority: string, path: string)
    requires HostPort(authority) != "" && !Has(authority, '/') && (path == "" || path[0] == '/')
    ensures SplitAuthority(authority + path) == Some((authority, path))
  {
    var hier := authority + path;
    forall i | 0 <= i < |authority|
      ensures hier[i] != '/'
    {
      assert hier[i] == authority[i] && authority[i] in authority;
    }
    IndexOfIs(hier, '/', |authority|);
    assert hier[..|authority|] == authority;
    assert hier[|authority|..] == path;
  }

  /** The hierarchy splitter recovers the pieces it is given. */
  lemma ParseHierarchyFinds(s: string, scheme: string, authority: string, path: string)
    requires s == scheme + "://" + authority + path
    requires ValidScheme(scheme) && HostPort(authority) != ""
    requires !Has(authority, '/') && (path == "" || path[0] == '/')
    ensures ParseHierarchy(s) == Some(Hierarchy(scheme, authority, path))
  {
    var hier := authority + path;
    assert s == scheme + "://" + hier by {
      assert scheme + "://" + authority + path == (scheme + "://") + (authority + path);
    }
    SchemeSeparator(s, scheme, hier);
    AuthorityEnd(authority, path);
    ParseHierarchyAt(s, |scheme|, authority, path);
  }

  /** With the scheme ending at the first `:` and the authority found after `//`,
      the splitter returns those pieces. */
  lemma ParseHierarchyAt(s: string, c: nat, authority: string, path: string)
    requires c == IndexOf(s, ':') && SchemeAt(s, c)
    requires SplitAuthority(s[c + 3..]) == Some((authority, path))
    ensures ParseHierarchy(s) == Some(Hierarchy(s[..c], authority, path))
  {
  }

  /** A concatenation of two `c`-free strings is `c`-free. */
  lemma JoinLacks(a: string, b: string, c: char)
    requires !Has(a, c) && !Has(b, c)
    ensures !Has(a + b, c)
  {
    forall i | 0 <= i < |a + b|
      ensures (a + b)[i] != c
    {
      if i < |a| {
        assert (a + b)[i] == a[i];
      } else {
        assert (a + b)[i] == b[i - |a|];
      }
    }
  }

  /** Neither `?` nor `#` occurs before the query of a serialised URL. */
  lemma BaseLacks(u: Url)
    requires WellFormed(u)
    ensures !Has(HrefBase(u), '?') && !Has(HrefBase(u), '#')
  {
    SchemeLacks(u.scheme, '?');
    SchemeLacks(u.scheme, '#');
    assert !Has("://", '?') && !Has("://", '#');
    JoinLacks(u.scheme, "://", '?');
    JoinLacks(u.scheme, "://", '#');
    JoinLacks(u.scheme + "://", u.authority, '?');
    JoinLacks(u.scheme + "://", u.authority, '#');
    JoinLacks(u.scheme + "://" + u.authority, u.path, '?');
    JoinLacks(u.scheme + "://" + u.authority, u.path, '#');
  }

  /** No `#` occurs before the fragment of a serialised URL. */
  lemma BeforeFragmentLacks(u: Url)
    requires WellFormed(u)
    ensures !Has(HrefBase(u) + Suffix('?', u.query), '#')
  {
    BaseLacks(u);
    if u.query.Some? {
      assert !Has(['?'], '#');
      JoinLacks(['?'], u.query.value, '#');
      JoinLacks(HrefBase(u), ['?'] + u.query.value, '#');
    } else {
      assert HrefBase(u) + Suffix('?', u.query) == HrefBase(u);
    }
  }

  /** `Parse` reads its input: the scheme is the input's own scheme lower-cased,
      and serialising the result with that scheme as written gives the input back. */
  lemma ParseKeepsInput(s: string)
    requires Parse(s).Some?
    ensures var u := Parse(s).value;
      && |u.scheme| <= |s|
      && LowerAscii(s[..|u.scheme|]) == u.scheme
      && Href(u.(scheme := s[..|u.scheme|])) == s
  {
    var sh := SplitAt(s, '#');
    var sq := SplitAt(sh.0, '?');
    assert ParseHierarchy(sq.0).Some?;
    var h := ParseHierarchy(sq.0).value;
    assert Parse(s).value == Url(LowerAscii(h.rawScheme), h.authority, h.path, sq.1, sh.1);
    SplitRejoins(s, '#');
    SplitRejoins(sh.0, '?');
    RejoinParts(s, sh.0, sh.1, sq.0, sq.1, h);
  }

  /** The two pieces `SplitAt` returns, rejoined with the delimiter, give its input. */
  lemma SplitRejoins(s: string, c: char)
    ensures s == SplitAt(s, c).0 + Suffix(c, SplitAt(s, c).1)
  {
    var r := SplitAt(s, c);
    if r.1.Some? {
      assert s == r.0 + [c] + r.1.value;
      assert Suffix(c, r.1) == [c] + r.1.value;
    }
  }

  /** The pieces the parser cut `s` into, put back together, give `s`. */
  lemma RejoinParts(s: string, beforeHash: string, fragment: Option<string>,
                    beforeQuery: string, query: Option<string>, h: Hierarchy)
    requires s == beforeHash + Suffix('#', fragment)
    requires beforeHash == beforeQuery + Suffix('?', query)
    requires beforeQuery == h.rawScheme + "://" + h.authority + h.path
    ensures Href(Url(h.rawScheme, h.authority, h.path, query, fragment)) == s
    ensures StartsWith(s, h.rawScheme)
  {
    var raw := h.rawScheme;
    PrefixExtends(raw, "://", raw);
    PrefixExtends(raw + "://", h.authority, raw);
    PrefixExtends(raw + "://" + h.authority, h.path, raw);
    PrefixExtends(beforeQuery, Suffix('?', query), raw);
    PrefixExtends(beforeHash, Suffix('#', fragment), raw);
  }

  /** A prefix of `x` is a prefix of anything that continues `x`. */
  lemma PrefixExtends(x: string, y: string, p: string)
    requires StartsWith(x, p)
    ensures StartsWith(x + y, p)
  {
    assert (x + y)[..|p|] == x[..|p|];
  }

  /** A scheme with nothing after `://` names no host, so the URL constructor rejects it. */
  lemma BareSchemeRejected(scheme: string)
    requires ValidScheme(scheme)
    ensures CleanOf(scheme + "://") == None
  {
    var s := scheme + "://";
    SchemeLacks(scheme, '#');
    SchemeLacks(scheme, '?');
    assert !Has("://", '#') && !Has("://", '?');
    JoinLacks(scheme, "://", '#');
    JoinLacks(scheme, "://", '?');
    SplitLacking(s, '#');
    SplitLacking(s, '?');
    assert s == scheme + "://" + "";
    EmptyAuthorityRejected(s, scheme);
  }

  /** Cutting a string at a character it lacks leaves it whole. */
  lemma SplitLacking(s: string, c: char)
    requires !Has(s, c)
    ensures SplitAt(s, c) == (s, None)
  {
  }

  /** `scheme "://"` with nothing after it has no host. */
  lemma EmptyAuthorityRejected(s: string, scheme: string)
    requires ValidScheme(scheme) && s == scheme + "://" + ""
    ensures ParseHierarchy(s) == None
  {
    SchemeSeparator(s, scheme, "");
    assert SplitAuthority("") == None;
  }

  /** `Href` is undone by `Parse`: serialising a parsed URL and parsing it again
      gives back the same URL. */
  lemma ParseHref(u: Url)
    requires WellFormed(u)
    ensures Parse(Href(u)) == Some(u)
  {
    var base := HrefBase(u);
    var withQuery := base + Suffix('?', u.query);
    BaseLacks(u);
    BeforeFragmentLacks(u);
    SplitAtFinds(withQuery, '#', u.fragment);
    SplitAtFinds(base, '?', u.query);
    ParseHierarchyFinds(base, u.scheme, u.authority, u.path);
  }

  /** Lower-casing neither introduces nor removes a character that is not a letter. */
  lemma LowerKeepsLack(s: string, c: char)
    requires !Has(s, c) && !('a' <= c <= 'z')
    ensures !Has(LowerAscii(s), c)
  {
  }

  lemma LowerIdempotent(s: string)
    ensures LowerAscii(LowerAscii(s)) == LowerAscii(s)
  {
  }

  /** Origin followed by path name carries neither a query nor a fragment delimiter. */
  lemma OriginPathLacks(u: Url)
    requires WellFormed(u)
    ensures !Has(Origin(u) + Pathname(u), '?') && !Has(Origin(u) + Pathname(u), '#')
  {
    var hp := HostPort(u.authority);
    SliceLacks(u.authority, '?', |u.authority| - |hp|, |u.authority|);
    SliceLacks(u.authority, '#', |u.authority| - |hp|, |u.authority|);
    LowerKeepsLack(hp, '?');
    LowerKeepsLack(hp, '#');
    SchemeLacks(u.scheme, '?');
    SchemeLacks(u.scheme, '#');
    assert !Has("://", '?') && !Has("://", '#') && !Has("null", '?') && !Has("null", '#');
    assert !Has("/", '?') && !Has("/", '#');
    JoinLacks(u.scheme, "://", '?');
    JoinLacks(u.scheme, "://", '#');
    JoinLacks(u.scheme + "://", LowerAscii(hp), '?');
    JoinLacks(u.scheme + "://", LowerAscii(hp), '#');
    JoinLacks(Origin(u), Pathname(u), '?');
    JoinLacks(Origin(u), Pathname(u), '#');
  }

  /** The extractor's first step: parse the input, then keep origin and path.
      `None` when the URL constructor would throw. */
  function CleanOf(s: string): (r: Option<string>)
    ensures r.Some? ==> !Has(r.value, '?') && !Has(r.value, '#')
    ensures r.Some? <==> Parse(s).Some?
  {
    match Parse(s)
    case None => None
    case Some(u) => Some(CleanUrl(u))
  }

  /** The cleaned URL of a serialised URL is computed from that URL alone. */
  lemma CleanOfHref(u: Url)
    requires WellFormed(u)
    ensures CleanOf(Href(u)) == Some(CleanUrl(u))
  {
    ParseHref(u);
  }

  /** Whatever query and fragment a URL carries, it is cleaned to the same string. */
  lemma QueryAndFragmentIgnored(u: Url, query: Option<string>, fragment: Option<string>)
    requires WellFormed(u) && (query.Some? ==> !Has(query.value, '#'))
    ensures CleanOf(Href(u.(query := query, fragment := fragment))) == CleanOf(Href(u))
    ensures CleanOf(Href(u)).Some?
  {
    var v := u.(query := query, fragment := fragment);
    assert WellFormed(v);
    CleanOfHref(u);
    CleanOfHref(v);
  }

  /** The lower-cased host of a well-formed URL holds no delimiter and no `@`. */
  lemma HostLacks(u: Url, c: char)
    requires WellFormed(u) && (c == '?' || c == '#' || c == '/' || c == '@')
    ensures !Has(LowerAscii(HostPort(u.authority)), c)
  {
    var hp := HostPort(u.authority);
    if c != '@' {
      SliceLacks(u.authority, c, |u.authority| - |hp|, |u.authority|);
    }
    LowerKeepsLack(hp, c);
  }

  /** The cleaned URL as a URL: lower-cased host, path, no query, no fragment. */
  function Cleaned(u: Url): Url {
    Url(u.scheme, LowerAscii(HostPort(u.authority)), Pathname(u), None, None)
  }

  /** The cleaned URL of an http(s)-like URL is well formed, serialises to the
      cleaned string, and is its own cleaned URL. */
  lemma CleanedIsClean(u: Url)
    requires WellFormed(u) && u.scheme in TupleOriginSchemes
    ensures WellFormed(Cleaned(u))
    ensures Href(Cleaned(u)) == CleanUrl(u) && CleanUrl(Cleaned(u)) == CleanUrl(u)
  {
    CleanedWellFormed(u);
    CleanedSerialises(u);
  }

  lemma CleanedWellFormed(u: Url)
    requires WellFormed(u) && u.scheme in TupleOriginSchemes
    ensures WellFormed(Cleaned(u))
  {
    var hp := HostPort(u.authority);
    var host := LowerAscii(hp);
    HostLacks(u, '?');
    HostLacks(u, '#');
    HostLacks(u, '/');
    HostLacks(u, '@');
    assert HostPort(host) == host;
    assert Pathname(u) != "";
    assert !Has("/", '?') && !Has("/", '#');
  }

  lemma CleanedSerialises(u: Url)
    requires WellFormed(u) && u.scheme in TupleOriginSchemes
    ensures Href(Cleaned(u)) == CleanUrl(u) && CleanUrl(Cleaned(u)) == CleanUrl(u)
  {
    var hp := HostPort(u.authority);
    var host := LowerAscii(hp);
    var c := Cleaned(u);
    HostLacks(u, '@');
    assert HostPort(host) == host;
    LowerIdempotent(hp);
    assert Origin(u) == u.scheme + "://" + host;
    assert Origin(c) == Origin(u);
    assert Pathname(c) == Pathname(u);
    assert Href(c) == HrefBase(c);
  }

  /** Cleaning is idempotent: the cleaned URL of an http(s)-like URL parses, and
      cleaning it again changes nothing. */
  lemma CleanUrlIdempotent(u: Url)
    requires WellFormed(u) && u.scheme in TupleOriginSchemes
    ensures CleanOf(CleanUrl(u)) == Some(CleanUrl(u))
  {
    CleanedIsClean(u);
    CleanOfHref(Cleaned(u));
  }
}

=== FILE: wrappers.dfy ===
/** Absence and failure values shared by the modules of this project. */
module Wrappers {

  /** A value that may be missing: JavaScript's `undefined`/`null` for an optional field. */
  datatype Option<+T> = None | Some(value: T)

  /** The outcome of an operation that the source lets throw: a value or an error. */
  datatype Result<+T, +E> = Success(value: T) | Failure(error: E)
}
